=== FILE: README.md ===
# Hazard-report evaluator views, modelled in Dafny

This project models the rules inside a React front end used to review
hazard reports from a mine site. The application shows a list of
reports, the detail page of one report, and a panel that reviews a
cluster of possible duplicate reports. All data is hand-written mock
data, so the logic is a set of pure rules spread over the view
components. The model covers:

- **Data and tables** (`reports.dfy`, `tables.dfy`): the report and
  cluster records, the closed status and label enumerations, and the
  constant tables. These are the clusters, the site → location → detail
  option cascade, the pre-AI queue and the post-AI report list, with
  lemmas about their integrity.
- **Duplicate-cluster review** (`cluster_panel.dfy`):
  - where the cluster's reports come from;
  - the split into a representative (element 0) and candidates;
  - the score tiers;
  - ranking the candidates by the chosen similarity dimension;
  - the per-row displayed score;
  - the list/compare view state.
- **Report list** (`report_list.dfy`):
  - the conjunctive search/label/hazard filter;
  - ordering by time;
  - the hazard-type dropdown options;
  - pagination with the three-button page window and the prev/next buttons;
  - the filter state machine;
  - the "n hari lalu" age label and the month-abbreviation lookup.
- **Report detail** (`report_detail.dfy`):
  - label chip configuration;
  - the evaluation-status panel;
  - the confidence badge tiers;
  - 1-based prev/next navigation;
  - the `||` fallbacks for optional fields.
- **Shared helpers**:
  - `stable_sort.dfy` holds one stable insertion sort, driven by a
    JavaScript-style comparator, standing in for `Array.prototype.sort`. That
    sort is stable (ECMAScript 2019).
  - `seqs.dfy` holds `filter`, `indexOf` and the subsequence relation.
  - `text.dfy` holds ASCII lower-casing, `includes`, decimal rendering and
    ISO-8601 timestamp keys.
  - `wrappers.dfy` holds `Option`.

Modelling choices:

- **Scores.** Similarity scores are two-decimal fractions in the source. Here
  they are integer hundredths (0..100), so the tier thresholds 0.75 and 0.5
  become 75 and 50. Only comparisons are made on them.
- **Time.** The report list's time key comes from parsing dates. It is taken
  as an arbitrary function `time: HazardReport -> int`. The age label takes
  the elapsed whole days as its input.
- **Optional fields.** TypeScript optional fields become `Option`. A `||`
  fallback treats a missing value and the empty string alike.
- **`duplicateScores`.** The cluster panel uses this field but the
  `HazardReport` interface does not declare it. It is an optional field of
  the record here.
- **Ranking details.** Three facts about the cluster ranking shape the
  model:
  - A candidate without scores compares equal to every candidate, so it is
    not sorted last.
  - `sortBy` values other than `semantic`, `lexical` and `geo` sort by
    `overall`, so `ruleBased` is never a key.
  - The C-001 candidates' semantic scores in the dummy table are 0.80,
    0.92, 0.75 and 0.83.

## Model

| member | source | states |
|---|---|---|
| `ClusterPanel.ClusterReports` | src/components/ClusterPanel.tsx:382 | A cluster id present in the dummy table uses that entry, even an empty one. Otherwise the result is exactly the reports whose cluster is the id, each occurrence kept, in original order (a subsequence). |
| `ClusterPanel.Representative` | src/components/ClusterPanel.tsx:385 | There is a representative iff the cluster has a report, and it is element 0. |
| `ClusterPanel.Candidates` | src/components/ClusterPanel.tsx:386 | The candidates are exactly elements 1.. in order: n−1 of them for n > 0 reports, none for an empty cluster. |
| `ClusterPanel.SplitRoundTrip` | src/components/ClusterPanel.tsx:385-386 | Representative followed by candidates gives back the cluster's reports. |
| `ClusterPanel.RepresentativeNotCandidate` | src/components/ClusterPanel.tsx:385-386 | With distinct ids the representative is not among the candidates. |
| `ClusterPanel.DummyIdsDistinct` | src/components/ClusterPanel.tsx:17-369 | Each dummy cluster lists every report id once. |
| `ClusterPanel.FilterKeepsDistinctIds` | src/components/ClusterPanel.tsx:382 | Filtering a report list with distinct ids keeps the ids distinct. |
| `ClusterPanel.PanelReportsDistinctIds` | src/components/ClusterPanel.tsx:382 | For every cluster, the reports the panel shows (dummy entry or filtered post-AI list) have distinct ids. |
| `ClusterPanel.ScoreTextTier` | src/components/ClusterPanel.tsx:388-392 | `getScoreColor`, a text colouring the panel defines but never calls: destructive iff score ≥ 0.75, warning iff 0.5 ≤ score < 0.75, success iff score < 0.5. |
| `ClusterPanel.ScoreBadgeTier` | src/components/ClusterPanel.tsx:394-398 | `getScoreBgColor`, the badge colour every score badge uses, with the same three thresholds. |
| `ClusterPanel.TiersAgree` | src/components/ClusterPanel.tsx:388-398 | The unused text colouring and the badge colouring would always pick the same tier for a score. |
| `ClusterPanel.TierMonotone` | src/components/ClusterPanel.tsx:388-398 | A higher score never gets a lower tier. |
| `ClusterPanel.KeyDimension` | src/components/ClusterPanel.tsx:402-411 | `semantic`, `lexical` and `geo` sort by their own dimension. Any other value sorts by overall. Rule-based is never a key. |
| `ClusterPanel.Rank` | src/components/ClusterPanel.tsx:400-412 | The ranked list is a permutation of the candidates, even when some candidates lack scores. |
| `ClusterPanel.ComparatorIsScoreDifference` | src/components/ClusterPanel.tsx:400-412 | With every candidate scored, the comparator is the difference of the negated active scores. |
| `ClusterPanel.RankDescending` | src/components/ClusterPanel.tsx:400-412 | With every candidate scored, the ranking is non-increasing in the active score. |
| `ClusterPanel.RankStable` | src/components/ClusterPanel.tsx:400-412 | With every candidate scored, candidates with equal scores keep their input order. |
| `ClusterPanel.RankExcludesRepresentative` | src/components/ClusterPanel.tsx:385-412 | With distinct ids the ranked list never contains the representative. |
| `ClusterPanel.PanelRankExcludesRepresentative` | src/components/ClusterPanel.tsx:382-412 | For every cluster of the application, the ranked list never contains the representative. |
| `ClusterPanel.RowScoreIsRankScore` | src/components/ClusterPanel.tsx:977-980 | The score a row shows is the row's own ranking key, or 0 without scores. |
| `ClusterPanel.Rows` | src/components/ClusterPanel.tsx:976-995 | There is one row per ranked candidate, in order. Each row shows the displayed score and that score's badge tier. |
| `ClusterPanel.CompareSummary` | src/components/ClusterPanel.tsx:677-697 | The comparison header shows the candidate's geo, lexical, semantic and overall scores (0 when unscored) and the overall tier. |
| `ClusterPanel.SummaryMatchesRows` | src/components/ClusterPanel.tsx:677-697 | Each summary score equals the score the candidate's list row shows under that sort key, and the overall badge matches the row's badge. |
| `ClusterPanel.SelectCandidate` | src/components/ClusterPanel.tsx:414-416 | Clicking a candidate selects it and keeps the sort key. |
| `ClusterPanel.BackToList` | src/components/ClusterPanel.tsx:418-420 | Going back clears the selection and keeps the sort key. |
| `ClusterPanel.ChangeSort` | src/components/ClusterPanel.tsx:956 | Choosing a sort key changes only the key. |
| `ClusterPanel.Render` | src/components/ClusterPanel.tsx:422-425 | An empty cluster renders nothing. Otherwise the view is the comparison iff a candidate is selected, and the list otherwise. The list holds n−1 rows beside the representative. |
| `ClusterPanel.RowReports` | src/components/ClusterPanel.tsx:976 | The reports behind the rows, in row order. |
| `ClusterPanel.ListViewShowsCandidates` | src/components/ClusterPanel.tsx:954-995 | The list view shows the ranked candidates, a permutation of the candidates, each with its active score. |
| `ClusterPanel.ListScoresDescend` | src/components/ClusterPanel.tsx:400-412 | With every candidate scored, the list's displayed scores never increase downwards. |
| `ClusterPanel.CompareRoundTrip` | src/components/ClusterPanel.tsx:378-379 | The panel starts on the list sorted by semantic score. Opening a comparison then going back restores the previous state and view. |
| `ClusterPanel.SortKeepsRepresentative` | src/components/ClusterPanel.tsx:385 | Changing the sort key never changes the representative. |
| `ClusterPanel.DummyTableWellFormed` | src/components/ClusterPanel.tsx:17-369 | Every dummy report carries scores, and its cluster is its table key. |
| `ClusterPanel.RankFourBySemantic` | src/components/ClusterPanel.tsx:400-412 | Four candidates with semantic scores 0.80, 0.92, 0.75 and 0.83 are ranked 0.92, 0.83, 0.80, 0.75. |
| `ClusterPanel.C001SemanticRanking` | src/components/ClusterPanel.tsx:18-134 | Cluster C-001 ranked by semantic score lists 23930, 23932, 23920, 23931. |
| `StableSort.SortPermutes` | src/components/ClusterPanel.tsx:400 | The sort returns a permutation of its input. |
| `StableSort.SortAscending` | src/components/ClusterPanel.tsx:400 | When the comparator is a key difference, the result ascends in the key. |
| `StableSort.SortStable` | src/components/ClusterPanel.tsx:400 | When the comparator is a key difference, elements with equal keys keep their input order. |
| `ReportList.LabelColor` | src/components/ReportListPanel.tsx:20-31 | A chip is coloured iff its name is a hazard label; other names are muted. |
| `ReportList.LabelColorsDistinct` | src/components/ReportListPanel.tsx:20-31 | Different labels get different colours. |
| `ReportList.MonthIndex` | src/components/ReportListPanel.tsx:37-38 | The month index lies in −1..11. It is −1 iff the abbreviation is not in the Indonesian table, and otherwise names that abbreviation. |
| `ReportList.MonthIndexRoundTrip` | src/components/ReportListPanel.tsx:37-38 | Each month's abbreviation reads back as that month. |
| `ReportList.AgeLabel` | src/components/ReportListPanel.tsx:45-47 | The label is "Hari ini" iff the difference is 0 days. For n ≥ 1 days it is the decimal n followed by " hari lalu". |
| `ReportList.AgeLabelReadsBack` | src/components/ReportListPanel.tsx:45-47 | The digits before " hari lalu" parse back to the day count. |
| `ReportList.AgeLabelInjective` | src/components/ReportListPanel.tsx:45-47 | Different day counts never share a label. |
| `ReportList.ToggleLabel` | src/components/ReportListPanel.tsx:118-136 | Clicking the active label returns the filter to "all", and clicking another label selects it. Either way the page resets to 1 and nothing else changes. |
| `ReportList.ToggleLabelTwice` | src/components/ReportListPanel.tsx:118-136 | When the label filter is "all" or already that label, clicking the label twice restores the filter. From another label it ends at "all". |
| `ReportList.ClearFilters` | src/components/ReportListPanel.tsx:81-88 | Afterwards no filter is active, the page is 1 and the search term is kept. |
| `ReportList.FieldMatches` | src/components/ReportListPanel.tsx:63-67 | A field matches iff its lower-cased text includes the lower-cased term. |
| `ReportList.FilterReports` | src/components/ReportListPanel.tsx:62-74 | A report is kept iff search, label filter and hazard filter all match. The result is a subsequence that keeps every occurrence of a kept report. |
| `ReportList.SearchIgnoresCase` | src/components/ReportListPanel.tsx:63-67 | Terms that differ only in ASCII case match the same reports. |
| `ReportList.NoFilterKeepsAll` | src/components/ReportListPanel.tsx:62-74 | With an empty search and both filters at "all", every report is kept, in order. |
| `ReportList.LabelFilterSelects` | src/components/ReportListPanel.tsx:69-70 | After switching a label on, every listed report carries that label. |
| `ReportList.ClearedListMatchesSearch` | src/components/ReportListPanel.tsx:81-88 | After clearing the filters only the search decides what is listed. |
| `ReportList.SortByTime` | src/components/ReportListPanel.tsx:75-79 | The time sort returns a permutation of the filtered list. |
| `ReportList.SortByTimeOrdered` | src/components/ReportListPanel.tsx:75-79 | The result ascends in time for "asc" and descends for any other order. |
| `ReportList.SortByTimeStable` | src/components/ReportListPanel.tsx:75-79 | Reports with equal time keep their filtered order. |
| `ReportList.Visible` | src/components/ReportListPanel.tsx:62-79 | The listed reports are exactly the kept reports, each as often as in the filtered list. |
| `ReportList.HazardTypes` | src/components/ReportListPanel.tsx:59 | The dropdown options have no duplicates and no empty string. A type is an option iff some report has it. Options are a subsequence of the reports' types, ordered by the `indexOf` of their first appearance. |
| `ReportList.UniqueNonEmpty` | src/components/ReportListPanel.tsx:59 | `[...new Set(xs.filter(Boolean))]`: each non-empty value of the column once, ordered by first appearance. |
| `ReportList.TotalPages` | src/components/ReportListPanel.tsx:91 | `ceil(n/10)`: the pages hold all n items, and the last page is not empty. |
| `ReportList.Slice` | src/components/ReportListPanel.tsx:93 | `slice(start, end)` with negative indices counted from the end and clamped to the list. |
| `ReportList.PageItems` | src/components/ReportListPanel.tsx:92-93 | A page never holds more than ten items, whatever the page number. |
| `ReportList.PageItemsRange` | src/components/ReportListPanel.tsx:92-93 | Page p ≥ 1 is the run of items from (p−1)·10. A real page is non-empty, and every page before the last is full. |
| `ReportList.PagesUpToPrefix` | src/components/ReportListPanel.tsx:91-93 | Pages 1..k together are the first min(10k, n) items. |
| `ReportList.PagesCoverList` | src/components/ReportListPanel.tsx:91-93 | Pages 1..totalPages together give back the whole list. |
| `ReportList.PageWindow` | src/components/ReportListPanel.tsx:240-250 | The window has min(3, totalPages) consecutive page numbers, all within 1..totalPages, for any current page. It starts at 1 for up to three pages, and otherwise one before the current page, pushed back into 1..totalPages−2. |
| `ReportList.PageWindowShowsCurrent` | src/components/ReportListPanel.tsx:240-250 | When the current page is in 1..totalPages, the window contains it. |
| `ReportList.DisplayedTotal` | src/components/ReportListPanel.tsx:228 | The displayed page total is at least 1. It is 1 for zero pages and the page count otherwise. |
| `ReportList.Step` | src/components/ReportListPanel.tsx:81-267 | Every search, label, hazard or order event resets the page to 1; a label click is the label toggle. Clear is the filter reset (page 1) while a filter is active, and does nothing otherwise, since the button is not rendered then. Paging events change only the page: prev goes one back unless on page 1, next one forward unless on the last page or with no pages, and a page button goes to its number. Each setter changes only its own field. |
| `ReportList.ClearButtonShownWhenActive` | src/components/ReportListPanel.tsx:81-164 | `hasActiveFilters` holds exactly when clearing would change the label, hazard or order filter; without it the clear event changes nothing, and after a clear no filter is active. |
| `ReportList.StepKeepsPageValid` | src/components/ReportListPanel.tsx:228-267 | The initial page is valid, and no event (search, label, hazard, order, clear, prev, next, page button) moves the page outside 1..`totalPages \|\| 1`. |
| `ReportList.ValidPageShowsWindow` | src/components/ReportListPanel.tsx:240-267 | On a valid page of a non-empty list, the window contains the current page and the page shows 1..10 items. |
| `ReportDetail.LabelConfig` | src/components/ReportDetail.tsx:8-12 | Each label's long name starts with its short name and " - ". Its colour is the colour the list gives that label. |
| `ReportDetail.LabelFullNamesDistinct` | src/components/ReportDetail.tsx:8-12 | The three long names are pairwise distinct. |
| `ReportDetail.HeaderChips` | src/components/ReportDetail.tsx:58-68 | The header shows label chips iff the report has a non-empty label list, and then shows those labels. |
| `ReportDetail.OutputChips` | src/components/ReportDetail.tsx:139-149 | The AI output card shows each label's long name, in label order. |
| `ReportDetail.ChipsAgree` | src/components/ReportDetail.tsx:58-68 | Header chips and output chips name the same labels in the same order. |
| `ReportDetail.EvaluationStatusDisplay` | src/components/ReportDetail.tsx:14-25 | Not yet evaluated shows "Belum Dievaluasi" (muted), in evaluation "Dalam Evaluasi" (info), finished "Selesai" (success). Review-again has no entry and shows "Unknown" (muted). |
| `ReportDetail.StatusCaptionsDistinct` | src/components/ReportDetail.tsx:14-25 | The statuses that have an entry show different captions. |
| `ReportDetail.StatusPanelOf` | src/components/ReportDetail.tsx:36 | There is no status panel iff the report has no evaluation status. The evaluator line appears iff the evaluator name is non-empty. |
| `ReportDetail.ConfidenceTone` | src/components/ReportDetail.tsx:155-157 | Success iff ≥ 90, warning iff 80..89, muted iff < 80. |
| `ReportDetail.ConfidenceToneMonotone` | src/components/ReportDetail.tsx:155-157 | A higher confidence never gets a weaker colour. |
| `ReportDetail.ConfidenceView` | src/components/ReportDetail.tsx:152-159 | The intended confidence view: hidden iff the score is missing or 0. Otherwise it shows the score with its colour. |
| `ReportDetail.ConfidenceAsWritten` | src/components/ReportDetail.tsx:73-159 | As rendered in the header badge and the AI output card: nothing iff the score is missing, a bare "0" iff the score is 0, otherwise the score. The colour belongs to the card's line; the header badge is uncoloured. |
| `ReportDetail.ZeroScoreShowsStrayZero` | src/components/ReportDetail.tsx:152 | A zero score renders the stray "0", where the intended view shows nothing. |
| `ReportDetail.ConfidenceViewDiffersOnlyAtZero` | src/components/ReportDetail.tsx:152-159 | For every score other than 0, the rendering as written and the intended view agree. |
| `ReportDetail.SuggestionLine` | src/components/ReportDetail.tsx:163-166 | The cluster suggestion line shows iff the suggestion is non-empty. |
| `ReportDetail.NavigationStaysInList` | src/components/ReportDetail.tsx:80-97 | For 1 ≤ index ≤ total, an enabled button leads to a position in 1..total. A single report has both buttons disabled. |
| `ReportDetail.OrElse` | src/components/ReportDetail.tsx:228 | `a \|\| b` is a's value when non-empty, else b. It is empty iff both are. |
| `ReportDetail.ShownLocation` | src/components/ReportDetail.tsx:228 | The location line is a non-empty area when there is one, and the location otherwise. |
| `ReportDetail.ShownNonCompliance` | src/components/ReportDetail.tsx:245 | The non-compliance line is a non-empty non-compliance when there is one, and the hazard type otherwise. |
| `ReportDetail.ShownSubNonCompliance` | src/components/ReportDetail.tsx:249 | The sub non-compliance line is a non-empty sub non-compliance when there is one, and the hazard subtype otherwise. |
| `ReportDetail.FallbackFollowsField` | src/components/ReportDetail.tsx:228-249 | For each of the three lines, filling in its optional field shows it, and clearing it or leaving it empty falls back. Changing one field leaves the other lines alone. |
| `Reports.Ids` | src/data/hazardReports.ts:41-42 | The ids of a report list, position by position. |
| `Tables.EnumerationsClosed` | src/data/hazardReports.ts:33-70 | There are exactly 4 AI statuses, 4 evaluation statuses and 3 SLA statuses, plus the three labels, each listed once. |
| `Tables.OptionCascadeComplete` | src/data/hazardReports.ts:173-210 | Every site has a non-empty location list, and every listed location has a non-empty detail list. |
| `Tables.ClustersResolve` | src/data/hazardReports.ts:84-170 | Cluster ids are distinct, and every post-AI report's cluster names one of them. |
| `Tables.AiQueueNotTriaged` | src/data/hazardReports.ts:213-361 | No queued report has a cluster or a finished AI status. |
| `Tables.TimestampsEveryFiveMinutes` | src/data/hazardReports.ts:233-357 | The queue's timestamps are well-formed and five minutes apart, from 06:15 on 12 Dec 2025. |
| `Tables.AiQueueChronological` | src/data/hazardReports.ts:212-361 | The queue's timestamps strictly increase in listing order. |
| `Tables.PostAiWellFormed` | src/data/hazardReports.ts:364-618 | Every post-AI report is AI-finished, with labels, confidence and evaluation status. |
| `Tables.AiQueueIdsDistinct` | src/data/hazardReports.ts:213-361 | Queue report ids are pairwise distinct. |
| `Tables.PostAiIdsDistinct` | src/data/hazardReports.ts:364-618 | Post-AI report ids are pairwise distinct. |
| `Text.Contains` | src/components/ReportListPanel.tsx:64 | The scan finds the needle iff it occurs at some position. |
| `Text.ParseNatToString` | src/components/ReportListPanel.tsx:47 | The rendered day count reads back as itself. |
| `Seqs.Filter` | src/components/ReportListPanel.tsx:62 | `filter` keeps each occurrence of each passing element, in order, and nothing else. |
| `Seqs.IndexOf` | src/components/ReportListPanel.tsx:38 | `indexOf` gives the first position of the element, or −1 iff it is absent. |

## Left out

- Markup, CSS class strings, icons and UI primitives are not modelled. Colours are the `Tone` enumeration, not class names.
- Wall-clock time and date parsing (`new Date()`, `Date.getTime`, the milliseconds-to-days arithmetic, the `parseInt` of day and year) are left out. The list's time key is the parameter `time`, and the age label takes the day difference as input. A report without a timestamp whose `tanggal` does not parse gives `NaN` in the source. This is not modelled.
- `Math.round(score * 100)` percentage rendering and all floating point are left out. Scores are exact hundredths.
- `toLowerCase` and `includes` follow ASCII rules only. Unicode case mapping is left out.
- `ClusterPanel.Rank`: when only some candidates are scored, the comparator returns 0 against every unscored candidate. That is not a consistent order, so its result is implementation-defined. Only the permutation property is claimed there; order and stability are claimed only when every candidate is scored.
- The sort itself is modelled as a stable insertion sort. `Array.prototype.sort` is stable, so for a consistent comparator the results coincide.
- Callbacks with no logic behind them are left out: closing the panel, selecting a report in the list, navigating in the detail view, and the confirm/reject duplicate buttons.
- The list's `selectedReportId` highlight is left out, as are the detail page's select-box default, the knowledge-source cards, the evidence image URL, and the unused `similarReports` and `dashboardStats` literals.
- Record fields that no rule reads are not part of the record: `lokasiKode`, `quickAction`, `tanggalPembuatan`, `rolePelapor`, `slaDueDate`, `assignedTo`, `aiBatch`, `etaSiapEvaluasi`, `deskripsi`, `aiKnowledgeSources`, `latitude`/`longitude`.
- The small G/L/S breakdown under each list row (`Math.round((score || 0) * 100)` for geo, lexical and semantic) is not part of `Row`. Its three values are those `CompareSummary` gives for the same candidate.
- `ClusterPanel.ClusterReports`: the dummy-table lookup is modelled as an own-key map lookup. In the application `clusterDummyReports[cluster.id]` also reaches inherited object members, so an id such as "constructor", "toString" or "__proto__" yields a non-array and `slice(1)` throws. The model instead filters the post-AI list for such an id, which gives no reports. No cluster id in the application's tables is affected.
- The two detail columns of the comparison view, the representative's and the selected candidate's (`renderReportColumn`), are left out. They show fields with the same `||` fallbacks as the detail page.

## Findings

| source | as written | input that shows it | evidently intended | confidence | as-written member | corrected member |
|---|---|---|---|---|---|---|
| src/components/ReportDetail.tsx:73, 152 | `{report.confidenceScore && (...)}` yields the number 0 for a zero score, and React prints it as the text "0" in the header and the AI output card | a report with `confidenceScore: 0` | show nothing for a zero score, as for a missing one | high, from JSX semantics; not executed | `ReportDetail.ConfidenceAsWritten`, `ReportDetail.ZeroScoreShowsStrayZero` | `ReportDetail.ConfidenceView`, `ReportDetail.ConfidenceViewDiffersOnlyAtZero` |

=== FILE: cluster_panel.dfy ===
/**
 * The duplicate-cluster review panel: where a cluster's reports come
 * from, the representative / candidate split, the ranking of candidates by
 * a similarity dimension, the score tiers, and the two-state view
 * (candidate list, or side-by-side comparison with one candidate).
 */
module ClusterPanel {
  import opened Wrappers
  import opened Reports
  import Tables
  import Seqs
  import StableSort

  /** Dummy members of cluster C-001, representative first. */
  const C001Dummy: seq<HazardReport> := [
    HazardReport(
      id := "HR-2025-336-23917",
      tanggal := "03 Des 2025",
      pelapor := "Siti Rahayu",
      lokasi := "(B 65) Area Gerbang",
      jenisHazard := "Pengoperasian Kendaraan",
      subJenisHazard := "Kecepatan berlebih",
      cluster := Some("C-001"),
      site := "BMO 1",
      detailLokasi := "Gerbang Utama Site",
      deskripsiTemuan := "LV melaju dengan kecepatan 45 km/jam di area 30 km/jam.",
      aiStatus := AISelesai,
      lokasiArea := Some("Hauling Road"),
      ketidaksesuaian := Some("DDP : Kelayakan dan Pengoperasian Kendaraan / Unit"),
      subKetidaksesuaian := Some("Tidak menggunakan APD sesuai standard"),
      duplicateScores := Some(DuplicateScores(87, 95, 92, 80, 85))),
    HazardReport(
      id := "HR-2025-336-23920",
      tanggal := "02 Des 2025",
      pelapor := "Bambang Sutrisno",
      lokasi := "(B 65) Area Gerbang",
      jenisHazard := "Pengoperasian Kendaraan",
      subJenisHazard := "Tidak sabuk pengaman",
      cluster := Some("C-001"),
      site := "BMO 1",
      detailLokasi := "Checkpoint 1",
      deskripsiTemuan := "Driver LV tidak menggunakan seatbelt di area gerbang utama.",
      aiStatus := AISelesai,
      lokasiArea := Some("Hauling Road"),
      ketidaksesuaian := Some("DDP : Kelayakan dan Pengoperasian Kendaraan / Unit"),
      subKetidaksesuaian := Some("Tidak menggunakan seatbelt"),
      duplicateScores := Some(DuplicateScores(82, 88, 90, 75, 80))),
    HazardReport(
      id := "HR-2025-336-23930",
      tanggal := "01 Des 2025",
      pelapor := "Eka Putra",
      lokasi := "(B 65) Area Gerbang",
      jenisHazard := "Pengoperasian Kendaraan",
      subJenisHazard := "Speeding",
      cluster := Some("C-001"),
      site := "BMO 1",
      detailLokasi := "Gerbang Utama Site",
      deskripsiTemuan := "Kendaraan melaju 50 km/jam di zona 30 km/jam dekat gerbang.",
      aiStatus := AISelesai,
      lokasiArea := Some("Hauling Road"),
      ketidaksesuaian := Some("DDP : Kelayakan dan Pengoperasian Kendaraan / Unit"),
      subKetidaksesuaian := Some("Kecepatan berlebih di area terbatas"),
      duplicateScores := Some(DuplicateScores(91, 95, 88, 90, 92))),
    HazardReport(
      id := "HR-2025-336-23931",
      tanggal := "30 Nov 2025",
      pelapor := "Doni Prasetyo",
      lokasi := "(B 65) Area Gerbang",
      jenisHazard := "Pengoperasian Kendaraan",
      subJenisHazard := "Kecepatan berlebih",
      cluster := Some("C-001"),
      site := "BMO 1",
      detailLokasi := "Persimpangan Gerbang",
      deskripsiTemuan := "HD melewati gerbang dengan kecepatan tinggi tanpa berhenti.",
      aiStatus := AISelesai,
      lokasiArea := Some("Hauling Road"),
      ketidaksesuaian := Some("DDP : Kelayakan dan Pengoperasian Kendaraan / Unit"),
      subKetidaksesuaian := Some("Tidak berhenti di checkpoint"),
      duplicateScores := Some(DuplicateScores(78, 85, 85, 72, 75))),
    HazardReport(
      id := "HR-2025-336-23932",
      tanggal := "29 Nov 2025",
      pelapor := "Agus Wijaya",
      lokasi := "(B 65) Area Gerbang",
      jenisHazard := "Pengoperasian Kendaraan",
      subJenisHazard := "Over Speed",
      cluster := Some("C-001"),
      site := "BMO 1",
      detailLokasi := "Jalur Angkut Pit Utara",
      deskripsiTemuan := "LV melaju 55 km/jam di zona 30 km/jam dekat gerbang masuk.",
      aiStatus := AISelesai,
      lokasiArea := Some("Hauling Road"),
      ketidaksesuaian := Some("DDP : Kelayakan dan Pengoperasian Kendaraan / Unit"),
      subKetidaksesuaian := Some("Pelanggaran batas kecepatan berulang"),
      duplicateScores := Some(DuplicateScores(85, 92, 82, 88, 83)))
  ]

  /** Dummy members of cluster C-002, representative first. */
  const C002Dummy: seq<HazardReport> := [
    HazardReport(
      id := "HR-2025-336-23918",
      tanggal := "03 Des 2025",
      pelapor := "Dedi Kurniawan",
      lokasi := "(B 66) Area Galian Coal",
      jenisHazard := "Perawatan Jalan",
      subJenisHazard := "Jalan berlubang",
      cluster := Some("C-002"),
      site := "BMO 1",
      detailLokasi := "Pit 3 Section A",
      deskripsiTemuan := "Terdapat lubang berdiameter 50cm di hauling road.",
      aiStatus := AISelesai,
      lokasiArea := Some("Pit Area"),
      ketidaksesuaian := Some("Standar Road Management"),
      subKetidaksesuaian := Some("Kondisi jalan tidak layak"),
      duplicateScores := Some(DuplicateScores(82, 90, 85, 75, 78))),
    HazardReport(
      id := "HR-2025-336-23940",
      tanggal := "02 Des 2025",
      pelapor := "Rudi Hartono",
      lokasi := "(B 66) Area Galian Coal",
      jenisHazard := "Perawatan Jalan",
      subJenisHazard := "Jalan rusak",
      cluster := Some("C-002"),
      site := "BMO 1",
      detailLokasi := "Pit 3 Section B",
      deskripsiTemuan := "Jalan hauling mengalami kerusakan parah akibat hujan.",
      aiStatus := AISelesai,
      lokasiArea := Some("Pit Area"),
      ketidaksesuaian := Some("Standar Road Management"),
      subKetidaksesuaian := Some("Drainase tidak berfungsi"),
      duplicateScores := Some(DuplicateScores(79, 85, 88, 70, 75))),
    HazardReport(
      id := "HR-2025-336-23941",
      tanggal := "01 Des 2025",
      pelapor := "Ahmad Fauzi",
      lokasi := "(B 66) Area Galian Coal",
      jenisHazard := "Perawatan Jalan",
      subJenisHazard := "Lubang jalan",
      cluster := Some("C-002"),
      site := "BMO 1",
      detailLokasi := "Pit 3 Section A",
      deskripsiTemuan := "Lubang di jalan hauling sekitar 40cm membahayakan unit.",
      aiStatus := AISelesai,
      lokasiArea := Some("Pit Area"),
      ketidaksesuaian := Some("Standar Road Management"),
      subKetidaksesuaian := Some("Pemeliharaan jalan tidak rutin"),
      duplicateScores := Some(DuplicateScores(75, 80, 90, 68, 72))),
    HazardReport(
      id := "HR-2025-336-23942",
      tanggal := "30 Nov 2025",
      pelapor := "Sinta Dewi",
      lokasi := "(B 66) Area Galian Coal",
      jenisHazard := "Perawatan Jalan",
      subJenisHazard := "Jalan berlubang",
      cluster := Some("C-002"),
      site := "BMO 1",
      detailLokasi := "Pit 3 Section C",
      deskripsiTemuan := "Beberapa lubang kecil di sepanjang jalan pit 3.",
      aiStatus := AISelesai,
      lokasiArea := Some("Pit Area"),
      ketidaksesuaian := Some("Standar Road Management"),
      subKetidaksesuaian := Some("Grading tidak dilakukan"),
      duplicateScores := Some(DuplicateScores(70, 75, 85, 62, 68))),
    HazardReport(
      id := "HR-2025-336-23943",
      tanggal := "29 Nov 2025",
      pelapor := "Hendra Saputra",
      lokasi := "(B 66) Area Galian Coal",
      jenisHazard := "Perawatan Jalan",
      subJenisHazard := "Jalan licin",
      cluster := Some("C-002"),
      site := "BMO 1",
      detailLokasi := "Pit 3 Section A",
      deskripsiTemuan := "Jalan hauling licin akibat tumpahan oli dari unit HD.",
      aiStatus := AISelesai,
      lokasiArea := Some("Pit Area"),
      ketidaksesuaian := Some("Standar Road Management"),
      subKetidaksesuaian := Some("Spillage tidak dibersihkan"),
      duplicateScores := Some(DuplicateScores(68, 72, 82, 58, 65)))
  ]

  /** Dummy members of cluster C-005, representative first. */
  const C005Dummy: seq<HazardReport> := [
    HazardReport(
      id := "HR-2025-336-23915",
      tanggal := "04 Des 2025",
      pelapor := "Kamila Iskandar",
      lokasi := "(B 56) Area Transportasi",
      jenisHazard := "APD",
      subJenisHazard := "Tidak menggunakan APD",
      cluster := Some("C-005"),
      site := "BMO 1",
      detailLokasi := "Dumping Di Dekat Air QSV 3 FAD",
      deskripsiTemuan := "Pekerja tidak menggunakan helm saat berada di area konstruksi.",
      aiStatus := AISelesai,
      lokasiArea := Some("Hauling Road"),
      ketidaksesuaian := Some("DDP : Kelayakan dan Pengoperasian Kendaraan / Unit"),
      subKetidaksesuaian := Some("Tidak menggunakan APD sesuai standard"),
      duplicateScores := Some(DuplicateScores(78, 85, 90, 65, 72))),
    HazardReport(
      id := "HR-2025-336-23919",
      tanggal := "02 Des 2025",
      pelapor := "Rina Marlina",
      lokasi := "(B 56) Area Transportasi",
      jenisHazard := "APD",
      subJenisHazard := "Tidak menggunakan APD",
      cluster := Some("C-005"),
      site := "BMO 2",
      detailLokasi := "Loading Point 2",
      deskripsiTemuan := "Crew tidak menggunakan kacamata safety saat dekat area debu.",
      aiStatus := AISelesai,
      lokasiArea := Some("Loading Point"),
      ketidaksesuaian := Some("APD Tidak Lengkap"),
      subKetidaksesuaian := Some("Tidak menggunakan kacamata safety"),
      duplicateScores := Some(DuplicateScores(75, 80, 70, 72, 78))),
    HazardReport(
      id := "HR-2025-336-23950",
      tanggal := "01 Des 2025",
      pelapor := "Budi Santoso",
      lokasi := "(B 56) Area Transportasi",
      jenisHazard := "APD",
      subJenisHazard := "Helm tidak dipakai",
      cluster := Some("C-005"),
      site := "BMO 1",
      detailLokasi := "Area Konstruksi Utama",
      deskripsiTemuan := "Operator tidak memakai helm safety di area kerja konstruksi.",
      aiStatus := AISelesai,
      lokasiArea := Some("Hauling Road"),
      ketidaksesuaian := Some("APD Tidak Lengkap"),
      subKetidaksesuaian := Some("Tidak menggunakan helm"),
      duplicateScores := Some(DuplicateScores(88, 92, 85, 82, 90))),
    HazardReport(
      id := "HR-2025-336-23951",
      tanggal := "30 Nov 2025",
      pelapor := "Ahmad Wijaya",
      lokasi := "(B 56) Area Transportasi",
      jenisHazard := "APD",
      subJenisHazard := "Safety vest tidak dipakai",
      cluster := Some("C-005"),
      site := "BMO 1",
      detailLokasi := "Dumping Area",
      deskripsiTemuan := "Pekerja tidak menggunakan safety vest saat turun dari unit.",
      aiStatus := AISelesai,
      lokasiArea := Some("Hauling Road"),
      ketidaksesuaian := Some("APD Tidak Lengkap"),
      subKetidaksesuaian := Some("Tidak menggunakan safety vest"),
      duplicateScores := Some(DuplicateScores(72, 78, 88, 65, 70))),
    HazardReport(
      id := "HR-2025-336-23952",
      tanggal := "29 Nov 2025",
      pelapor := "Sinta Dewi",
      lokasi := "(B 56) Area Transportasi",
      jenisHazard := "APD",
      subJenisHazard := "APD tidak lengkap",
      cluster := Some("C-005"),
      site := "BMO 2",
      detailLokasi := "Loading Point 1",
      deskripsiTemuan := "Karyawan bekerja tanpa sarung tangan di area material berbahaya.",
      aiStatus := AISelesai,
      lokasiArea := Some("Loading Point"),
      ketidaksesuaian := Some("APD Tidak Lengkap"),
      subKetidaksesuaian := Some("Tidak menggunakan sarung tangan"),
      duplicateScores := Some(DuplicateScores(68, 72, 65, 70, 65)))
  ]

  /** Hand-made cluster members with duplicate scores, keyed by cluster id. */
  const ClusterDummyReports: map<string, seq<HazardReport>> :=
    map["C-001" := C001Dummy, "C-002" := C002Dummy, "C-005" := C005Dummy]

  // ---------------------------------------------------------------------
  // Where the reports come from, and the representative / candidate split

  /** `r` belongs to the cluster named `clusterId`. */
  predicate InCluster(r: HazardReport, clusterId: string) {
    r.cluster == Some(clusterId)
  }

  /**
   * The reports shown for a cluster: the dummy-table entry when the id is a
   * key of the table (an existing entry is used even if it is empty), else
   * the reports of `all` that name the cluster, in their order in `all`.
   */
  function ClusterReports(clusterId: string, dummy: map<string, seq<HazardReport>>, all: seq<HazardReport>)
    : (rs: seq<HazardReport>)
    ensures clusterId in dummy ==> rs == dummy[clusterId]
    ensures clusterId !in dummy ==> Seqs.IsSubsequence(rs, all)
    ensures clusterId !in dummy ==> forall r :: r in rs ==> InCluster(r, clusterId)
    ensures clusterId !in dummy ==> forall r :: InCluster(r, clusterId) ==> multiset(rs)[r] == multiset(all)[r]
  {
    if clusterId in dummy then dummy[clusterId]
    else Seqs.Filter(all, (r: HazardReport) => InCluster(r, clusterId))
  }

  /** The reports the panel shows for `cluster`, from the tables of the application. */
  function PanelReports(cluster: ClusterInfo): seq<HazardReport> {
    ClusterReports(cluster.id, ClusterDummyReports, Tables.PostAiReports)
  }

  /** A report list whose id column is duplicate-free has distinct ids. */
  lemma IdsColumnDistinct(rs: seq<HazardReport>, ids: seq<string>)
    requires |ids| == |rs| && forall i :: 0 <= i < |rs| ==> rs[i].id == ids[i]
    requires Distinct(ids)
    ensures DistinctIds(rs)
  {
  }

  /** Each dummy cluster lists every report once. */
  lemma DummyIdsDistinct()
    ensures DistinctIds(C001Dummy)
    ensures DistinctIds(C002Dummy)
    ensures DistinctIds(C005Dummy)
  {
    IdsColumnDistinct(C001Dummy, ["HR-2025-336-23917", "HR-2025-336-23920", "HR-2025-336-23930",
      "HR-2025-336-23931", "HR-2025-336-23932"]);
    IdsColumnDistinct(C002Dummy, ["HR-2025-336-23918", "HR-2025-336-23940", "HR-2025-336-23941",
      "HR-2025-336-23942", "HR-2025-336-23943"]);
    IdsColumnDistinct(C005Dummy, ["HR-2025-336-23915", "HR-2025-336-23919", "HR-2025-336-23950",
      "HR-2025-336-23951", "HR-2025-336-23952"]);
  }

  /** Dropping the first report keeps ids distinct. */
  lemma TailDistinctIds(rs: seq<HazardReport>)
    requires |rs| > 0 && DistinctIds(rs)
    ensures DistinctIds(rs[1..])
    ensures forall r :: r in rs[1..] ==> r.id != rs[0].id
  {
    forall i, j | 0 <= i < j < |rs[1..]| ensures rs[1..][i].id != rs[1..][j].id {
      assert rs[1..][i] == rs[i + 1] && rs[1..][j] == rs[j + 1];
    }
    forall r | r in rs[1..] ensures r.id != rs[0].id {
      var k :| 0 <= k < |rs[1..]| && rs[1..][k] == r;
      assert rs[k + 1] == r;
    }
  }

  /** A report whose id is new may go in front of a list with distinct ids. */
  lemma ConsDistinctIds(x: HazardReport, rs: seq<HazardReport>)
    requires DistinctIds(rs) && forall r :: r in rs ==> r.id != x.id
    ensures DistinctIds([x] + rs)
  {
    var out := [x] + rs;
    forall i, j | 0 <= i < j < |out| ensures out[i].id != out[j].id {
      assert out[j] == rs[j - 1];
      if i == 0 {
        assert out[j] in rs;
      } else {
        assert out[i] == rs[i - 1];
      }
    }
  }

  /** Filtering a list with distinct ids keeps them distinct. */
  lemma {:induction false} FilterKeepsDistinctIds(rs: seq<HazardReport>, p: HazardReport -> bool)
    requires DistinctIds(rs)
    ensures DistinctIds(Seqs.Filter(rs, p))
  {
    if rs != [] {
      var tail := rs[1..];
      TailDistinctIds(rs);
      FilterKeepsDistinctIds(tail, p);
      var f := Seqs.Filter(tail, p);
      if p(rs[0]) {
        forall r | r in f ensures r.id != rs[0].id {
          assert multiset(f)[r] > 0;
          assert r in multiset(tail);
        }
        ConsDistinctIds(rs[0], f);
        assert Seqs.Filter(rs, p) == [rs[0]] + f;
      } else {
        assert Seqs.Filter(rs, p) == f;
      }
    }
  }

  /** The reports the panel shows for any cluster have distinct ids. */
  lemma PanelReportsDistinctIds(cluster: ClusterInfo)
    ensures DistinctIds(PanelReports(cluster))
  {
    if cluster.id in ClusterDummyReports {
      DummyIdsDistinct();
    } else {
      Tables.PostAiIdsDistinct();
      FilterKeepsDistinctIds(Tables.PostAiReports, (r: HazardReport) => InCluster(r, cluster.id));
    }
  }

  /** The representative is the first report, when there is one. */
  function Representative(rs: seq<HazardReport>): (rep: Option<HazardReport>)
    ensures rep.Some? <==> |rs| > 0
    ensures rep.Some? ==> rep.value == rs[0]
  {
    if |rs| == 0 then None else Some(rs[0])
  }

  /** The candidates are all reports after the first (`slice(1)`), in their original order. */
  function Candidates(rs: seq<HazardReport>): (cs: seq<HazardReport>)
    ensures |cs| == if |rs| == 0 then 0 else |rs| - 1
    ensures forall i :: 0 <= i < |cs| ==> cs[i] == rs[i + 1]
  {
    if |rs| == 0 then [] else rs[1..]
  }

  /** Splitting a non-empty list and joining the parts gives the list back. */
  lemma SplitRoundTrip(rs: seq<HazardReport>)
    requires |rs| > 0
    ensures [Representative(rs).value] + Candidates(rs) == rs
  {
  }

  /** With distinct ids, no candidate is the representative. */
  lemma RepresentativeNotCandidate(rs: seq<HazardReport>)
    requires |rs| > 0 && DistinctIds(rs)
    ensures forall c :: c in Candidates(rs) ==> c.id != Representative(rs).value.id
  {
    forall c | c in Candidates(rs) ensures c.id != rs[0].id {
      var k :| 0 <= k < |rs| - 1 && rs[1..][k] == c;
      assert rs[k + 1] == c;
    }
  }

  // ---------------------------------------------------------------------
  // Score tiers

  /** The tier `getScoreColor` picks (text colour). */
  function ScoreTextTier(score: Hundredths): (t: Tone)
    ensures t == Destructive <==> score >= 75
    ensures t == Warning <==> 50 <= score < 75
    ensures t == Success <==> score < 50
  {
    if score >= 75 then Destructive
    else if score >= 50 then Warning
    else Success
  }

  /** The tier `getScoreBgColor` picks (badge background). */
  function ScoreBadgeTier(score: Hundredths): (t: Tone)
    ensures t == Destructive <==> score >= 75
    ensures t == Warning <==> 50 <= score < 75
    ensures t == Success <==> score < 50
  {
    if score >= 75 then Destructive
    else if score >= 50 then Warning
    else Success
  }

  /** Both colourings put every score in the same tier. */
  lemma TiersAgree(score: Hundredths)
    ensures ScoreTextTier(score) == ScoreBadgeTier(score)
  {
  }

  /** A higher score never gets a lower tier. */
  lemma TierMonotone(a: Hundredths, b: Hundredths)
    requires a <= b
    ensures ScoreBadgeTier(a) == Destructive ==> ScoreBadgeTier(b) == Destructive
    ensures ScoreBadgeTier(b) == Success ==> ScoreBadgeTier(a) == Success
  {
  }

  // ---------------------------------------------------------------------
  // Ranking

  /** The dimension the comparator reads for a `sortBy` value. */
  function KeyDimension(sortBy: string): (d: Dimension)
    ensures d != RuleBased
    ensures d == Semantic <==> sortBy == "semantic"
    ensures d == Lexical <==> sortBy == "lexical"
    ensures d == Geo <==> sortBy == "geo"
  {
    if sortBy == "semantic" then Semantic
    else if sortBy == "lexical" then Lexical
    else if sortBy == "geo" then Geo
    else Overall
  }

  /**
   * The ranking comparator: 0 when either side has no scores, otherwise
   * the difference that puts the higher score first.
   */
  function CompareCandidates(a: HazardReport, b: HazardReport, sortBy: string): int {
    if a.duplicateScores.None? || b.duplicateScores.None? then 0
    else
      var d := KeyDimension(sortBy);
      b.duplicateScores.value.Get(d) - a.duplicateScores.value.Get(d)
  }

  /** The comparator handed to the sort for a given `sortBy`. */
  function Comparator(sortBy: string): (HazardReport, HazardReport) -> int {
    (a, b) => CompareCandidates(a, b, sortBy)
  }

  /** A sorted copy of the candidates; the candidate list itself is a value and is untouched. */
  function Rank(candidates: seq<HazardReport>, sortBy: string): (ranked: seq<HazardReport>)
    ensures multiset(ranked) == multiset(candidates)
    ensures |ranked| == |candidates|
  {
    StableSort.SortPermutes(candidates, Comparator(sortBy));
    StableSort.Sort(candidates, Comparator(sortBy))
  }

  predicate AllScored(rs: seq<HazardReport>) {
    forall i :: 0 <= i < |rs| ==> rs[i].duplicateScores.Some?
  }

  /** The score a candidate is ranked by, 0 for an unscored one. */
  function RankScore(r: HazardReport, sortBy: string): Hundredths {
    match r.duplicateScores
    case None => 0
    case Some(ds) => ds.Get(KeyDimension(sortBy))
  }

  /** The ranking score negated, so that the ranking is ascending in this key. */
  function DescendingKey(sortBy: string): HazardReport -> int {
    (r: HazardReport) => -(RankScore(r, sortBy) as int)
  }

  /** The candidates of `s` whose active score is `v`, in their order in `s`. */
  ghost function Tied(s: seq<HazardReport>, sortBy: string, v: int): seq<HazardReport> {
    StableSort.WithKey(s, DescendingKey(sortBy), -v)
  }

  lemma ComparatorIsScoreDifference(candidates: seq<HazardReport>, sortBy: string)
    requires AllScored(candidates)
    ensures StableSort.AgreesWith(Comparator(sortBy), DescendingKey(sortBy), candidates)
  {
    forall a, b | a in candidates && b in candidates
      ensures Comparator(sortBy)(a, b) == DescendingKey(sortBy)(a) - DescendingKey(sortBy)(b)
    {
      var i :| 0 <= i < |candidates| && candidates[i] == a;
      var j :| 0 <= j < |candidates| && candidates[j] == b;
    }
  }

  /** When every candidate is scored, the ranking is non-increasing in the active score. */
  lemma RankDescending(candidates: seq<HazardReport>, sortBy: string)
    requires AllScored(candidates)
    ensures forall i, j :: 0 <= i < j < |Rank(candidates, sortBy)| ==>
      RankScore(Rank(candidates, sortBy)[i], sortBy) >= RankScore(Rank(candidates, sortBy)[j], sortBy)
  {
    ComparatorIsScoreDifference(candidates, sortBy);
    StableSort.SortAscending(candidates, Comparator(sortBy), DescendingKey(sortBy));
    var ranked := Rank(candidates, sortBy);
    assert StableSort.Ascending(ranked, DescendingKey(sortBy));
    forall i, j | 0 <= i < j < |ranked| ensures RankScore(ranked[i], sortBy) >= RankScore(ranked[j], sortBy) {
      assert DescendingKey(sortBy)(ranked[i]) <= DescendingKey(sortBy)(ranked[j]);
    }
  }

  /** When every candidate is scored, candidates with equal scores keep their input order. */
  lemma RankStable(candidates: seq<HazardReport>, sortBy: string, v: int)
    requires AllScored(candidates)
    ensures Tied(Rank(candidates, sortBy), sortBy, v) == Tied(candidates, sortBy, v)
  {
    ComparatorIsScoreDifference(candidates, sortBy);
    StableSort.SortStable(candidates, Comparator(sortBy), DescendingKey(sortBy), -v);
  }

  /** The ranked list never contains the representative (given distinct ids). */
  lemma RankExcludesRepresentative(rs: seq<HazardReport>, sortBy: string)
    requires |rs| > 0 && DistinctIds(rs)
    ensures forall c :: c in Rank(Candidates(rs), sortBy) ==> c.id != rs[0].id
  {
    RepresentativeNotCandidate(rs);
    forall c | c in Rank(Candidates(rs), sortBy) ensures c.id != rs[0].id {
      StableSort.InMultiset(c, Rank(Candidates(rs), sortBy), Candidates(rs));
    }
  }

  /** For every cluster of the application, the ranked list leaves out the representative. */
  lemma PanelRankExcludesRepresentative(cluster: ClusterInfo, sortBy: string)
    ensures |PanelReports(cluster)| > 0 ==>
      forall c :: c in Rank(Candidates(PanelReports(cluster)), sortBy) ==>
        c.id != Representative(PanelReports(cluster)).value.id
  {
    if |PanelReports(cluster)| > 0 {
      PanelReportsDistinctIds(cluster);
      RankExcludesRepresentative(PanelReports(cluster), sortBy);
    }
  }

  // ---------------------------------------------------------------------
  // Displayed scores

  /**
   * The score a list row shows: the active dimension's score, with an
   * absent score set read as 0 (the `?.` chain and the `|| 0` fallbacks).
   */
  function RowScore(r: HazardReport, sortBy: string): Hundredths {
    var ds := r.duplicateScores;
    if sortBy == "semantic" then (if ds.Some? then ds.value.semantic else 0)
    else if sortBy == "lexical" then (if ds.Some? then ds.value.lexical else 0)
    else if sortBy == "geo" then (if ds.Some? then ds.value.geo else 0)
    else (if ds.Some? then ds.value.overall else 0)
  }

  /** Each row shows exactly the score its candidate is ranked by, or 0 when unscored. */
  lemma RowScoreIsRankScore(r: HazardReport, sortBy: string)
    ensures RowScore(r, sortBy) == RankScore(r, sortBy)
    ensures r.duplicateScores.None? ==> RowScore(r, sortBy) == 0
    ensures r.duplicateScores.Some? ==>
      RowScore(r, sortBy) == r.duplicateScores.value.Get(KeyDimension(sortBy))
  {
  }

  /** One row of the candidate list. */
  datatype Row = Row(report: HazardReport, score: Hundredths, tier: Tone)

  function Rows(ranked: seq<HazardReport>, sortBy: string): (rows: seq<Row>)
    ensures |rows| == |ranked|
    ensures forall i :: 0 <= i < |ranked| ==> rows[i].report == ranked[i]
    ensures forall i :: 0 <= i < |ranked| ==> rows[i].score == RowScore(ranked[i], sortBy)
    ensures forall i :: 0 <= i < |ranked| ==> rows[i].tier == ScoreBadgeTier(rows[i].score)
  {
    if ranked == [] then []
    else
      var s := RowScore(ranked[0], sortBy);
      [Row(ranked[0], s, ScoreBadgeTier(s))] + Rows(ranked[1..], sortBy)
  }

  /** The compare view's similarity summary: each score or 0, and the overall badge tier. */
  datatype Summary = Summary(geo: Hundredths, lexical: Hundredths, semantic: Hundredths,
                             overall: Hundredths, overallTier: Tone)

  function CompareSummary(candidate: HazardReport): (s: Summary)
    ensures candidate.duplicateScores.None? ==> s.geo == s.lexical == s.semantic == s.overall == 0
    ensures candidate.duplicateScores.Some? ==>
      s.geo == candidate.duplicateScores.value.geo &&
      s.lexical == candidate.duplicateScores.value.lexical &&
      s.semantic == candidate.duplicateScores.value.semantic &&
      s.overall == candidate.duplicateScores.value.overall
    ensures s.overallTier == ScoreBadgeTier(s.overall)
  {
    var ds := candidate.duplicateScores.GetOr(DuplicateScores(0, 0, 0, 0, 0));
    Summary(ds.geo, ds.lexical, ds.semantic, ds.overall, ScoreBadgeTier(ds.overall))
  }

  /**
   * The summary shows the same scores and the same overall badge as the
   * list row of the candidate under each sort key.
   */
  lemma SummaryMatchesRows(c: HazardReport)
    ensures CompareSummary(c).semantic == Rows([c], "semantic")[0].score
    ensures CompareSummary(c).lexical == Rows([c], "lexical")[0].score
    ensures CompareSummary(c).geo == Rows([c], "geo")[0].score
    ensures CompareSummary(c).overall == Rows([c], "overall")[0].score
    ensures CompareSummary(c).overallTier == Rows([c], "overall")[0].tier
  {
  }

  // ---------------------------------------------------------------------
  // View state

  /** The panel's state: the chosen sort key and the candidate under comparison, if any. */
  datatype PanelState = PanelState(sortBy: string, selected: Option<HazardReport>)

  const InitialPanel: PanelState := PanelState("semantic", None)

  /** Clicking a candidate row opens the comparison with that candidate. */
  function SelectCandidate(st: PanelState, candidate: HazardReport): (st': PanelState)
    ensures st'.selected == Some(candidate)
    ensures st'.sortBy == st.sortBy
  {
    st.(selected := Some(candidate))
  }

  /** "Back" leaves the comparison. */
  function BackToList(st: PanelState): (st': PanelState)
    ensures st'.selected.None?
    ensures st'.sortBy == st.sortBy
  {
    st.(selected := None)
  }

  /** Choosing a sort option. */
  function ChangeSort(st: PanelState, sortBy: string): (st': PanelState)
    ensures st'.sortBy == sortBy
    ensures st'.selected == st.selected
  {
    st.(sortBy := sortBy)
  }

  /** What the panel renders. */
  datatype View =
    | Hidden
    | ListView(representative: HazardReport, rows: seq<Row>)
    | CompareView(representative: HazardReport, candidate: HazardReport, summary: Summary)

  /**
   * The panel for a cluster's reports: nothing when there are none (whatever
   * the state), else the comparison when a candidate is selected, else the
   * ranked candidate list.
   */
  function Render(rs: seq<HazardReport>, st: PanelState): (v: View)
    ensures v.Hidden? <==> |rs| == 0
    ensures !v.Hidden? ==> v.representative == rs[0]
    ensures v.CompareView? <==> |rs| > 0 && st.selected.Some?
    ensures v.CompareView? ==> v.candidate == st.selected.value
    ensures v.ListView? ==> |v.rows| == |rs| - 1
  {
    match Representative(rs)
    case None => Hidden
    case Some(rep) =>
      match st.selected
      case Some(c) => CompareView(rep, c, CompareSummary(c))
      case None => ListView(rep, Rows(Rank(Candidates(rs), st.sortBy), st.sortBy))
  }

  function RowReports(rows: seq<Row>): (rs: seq<HazardReport>)
    ensures |rs| == |rows|
    ensures forall i :: 0 <= i < |rows| ==> rs[i] == rows[i].report
  {
    if rows == [] then [] else [rows[0].report] + RowReports(rows[1..])
  }

  /** The list view lists every candidate once, in ranked order, with its ranking score. */
  lemma ListViewShowsCandidates(rs: seq<HazardReport>, st: PanelState)
    requires |rs| > 0 && st.selected.None?
    ensures Render(rs, st).ListView?
    ensures RowReports(Render(rs, st).rows) == Rank(rs[1..], st.sortBy)
    ensures multiset(RowReports(Render(rs, st).rows)) == multiset(rs[1..])
    ensures forall i :: 0 <= i < |Render(rs, st).rows| ==>
      Render(rs, st).rows[i].score == RankScore(Render(rs, st).rows[i].report, st.sortBy)
  {
    var rows := Render(rs, st).rows;
    assert RowReports(rows) == Rank(rs[1..], st.sortBy);
    forall i | 0 <= i < |rows| ensures rows[i].score == RankScore(rows[i].report, st.sortBy) {
      RowScoreIsRankScore(rows[i].report, st.sortBy);
    }
  }

  /** With every candidate scored, the list's displayed scores never increase downwards. */
  lemma ListScoresDescend(rs: seq<HazardReport>, st: PanelState)
    requires |rs| > 0 && st.selected.None? && AllScored(rs[1..])
    ensures forall i, j :: 0 <= i < j < |Render(rs, st).rows| ==>
      Render(rs, st).rows[i].score >= Render(rs, st).rows[j].score
  {
    ListViewShowsCandidates(rs, st);
    RankDescending(rs[1..], st.sortBy);
  }

  /**
   * The panel opens on the list sorted by semantic score; opening a
   * comparison and going back restores exactly the state, and so the
   * view, that was there before.
   */
  lemma CompareRoundTrip(rs: seq<HazardReport>, st: PanelState, candidate: HazardReport)
    requires st.selected.None?
    ensures InitialPanel.sortBy == "semantic" && InitialPanel.selected.None?
    ensures BackToList(SelectCandidate(st, candidate)) == st
    ensures Render(rs, BackToList(SelectCandidate(st, candidate))) == Render(rs, st)
    ensures |rs| > 0 ==> Render(rs, SelectCandidate(st, candidate)).CompareView?
  {
  }

  /** Changing the sort key never changes which report is the representative. */
  lemma SortKeepsRepresentative(rs: seq<HazardReport>, st: PanelState, sortBy: string)
    requires |rs| > 0
    ensures Render(rs, ChangeSort(st, sortBy)).representative == Render(rs, st).representative == rs[0]
  {
  }

  // ---------------------------------------------------------------------
  // Facts about the dummy table

  /** Every dummy report carries duplicate scores and names its own table key as its cluster. */
  lemma DummyTableWellFormed()
    ensures forall k :: k in ClusterDummyReports ==> AllScored(ClusterDummyReports[k])
    ensures forall k, i :: k in ClusterDummyReports && 0 <= i < |ClusterDummyReports[k]| ==>
      InCluster(ClusterDummyReports[k][i], k)
  {
  }

  /** Ranking four scored candidates whose semantic scores are 80, 92, 75, 83. */
  lemma RankFourBySemantic(a: HazardReport, b: HazardReport, c: HazardReport, d: HazardReport)
    requires a.duplicateScores.Some? && b.duplicateScores.Some?
    requires c.duplicateScores.Some? && d.duplicateScores.Some?
    requires RankScore(a, "semantic") == 80 && RankScore(b, "semantic") == 92
    requires RankScore(c, "semantic") == 75 && RankScore(d, "semantic") == 83
    ensures Rank([a, b, c, d], "semantic") == [b, d, a, c]
  {
    var cmp := Comparator("semantic");
    assert cmp(c, d) > 0 && cmp(b, d) <= 0 && cmp(a, b) > 0 && cmp(a, d) > 0 && cmp(a, c) <= 0;
    StableSort.SortFourExample(a, b, c, d, cmp);
  }

  /** The candidates of cluster C-001 with their ids and semantic scores. */
  lemma C001Candidates()
    ensures |C001Dummy| == 5
    ensures C001Dummy[1].id == "HR-2025-336-23920" && C001Dummy[1].duplicateScores == Some(DuplicateScores(82, 88, 90, 75, 80))
    ensures C001Dummy[2].id == "HR-2025-336-23930" && C001Dummy[2].duplicateScores == Some(DuplicateScores(91, 95, 88, 90, 92))
    ensures C001Dummy[3].id == "HR-2025-336-23931" && C001Dummy[3].duplicateScores == Some(DuplicateScores(78, 85, 85, 72, 75))
    ensures C001Dummy[4].id == "HR-2025-336-23932" && C001Dummy[4].duplicateScores == Some(DuplicateScores(85, 92, 82, 88, 83))
  {
  }

  /** Cluster C-001 ranked by semantic score: the third, fifth, second and fourth report. */
  lemma C001RankedBySemantic()
    ensures |C001Dummy| == 5
    ensures Rank(Candidates(C001Dummy), "semantic") == [C001Dummy[2], C001Dummy[4], C001Dummy[1], C001Dummy[3]]
  {
    C001Candidates();
    var rs := C001Dummy;
    assert Candidates(rs) == [rs[1], rs[2], rs[3], rs[4]];
    RankFourBySemantic(rs[1], rs[2], rs[3], rs[4]);
  }

  /** The ids of a four-report list, in order. */
  lemma IdsOfFour(a: HazardReport, b: HazardReport, c: HazardReport, d: HazardReport)
    ensures Ids([a, b, c, d]) == [a.id, b.id, c.id, d.id]
  {
  }

  /** The dummy table files cluster C-001 under its own key. */
  lemma C001Lookup()
    ensures "C-001" in ClusterDummyReports && ClusterDummyReports["C-001"] == C001Dummy
  {
  }

  /** Cluster C-001 ranked by semantic score: 0.92, 0.83, 0.80, 0.75. */
  lemma C001SemanticRanking()
    ensures Ids(Rank(Candidates(ClusterDummyReports["C-001"]), "semantic")) ==
      ["HR-2025-336-23930", "HR-2025-336-23932", "HR-2025-336-23920", "HR-2025-336-23931"]
  {
    C001Lookup();
    C001RankedBySemantic();
    C001Candidates();
    IdsOfFour(C001Dummy[2], C001Dummy[4], C001Dummy[1], C001Dummy[3]);
  }
}

=== FILE: report_detail.dfy ===
/**
 * The detail page of one report: the label chips and their long names,
 * the evaluation-status panel, the confidence badge and its colour,
 * previous/next navigation through the list, and the fallbacks used when
 * an optional field is empty.
 */
module ReportDetail {
  import opened Wrappers
  import opened Reports
  import ReportList

  // ---------------------------------------------------------------------
  // Labels

  datatype LabelStyle = LabelStyle(tone: Tone, fullName: string)

  /** The chip colour and long name of each hazard label. */
  function LabelConfig(l: HazardLabel): (c: LabelStyle)
    ensures LabelName(l) + " - " <= c.fullName
    ensures c.tone == ReportList.LabelColor(LabelName(l))
  {
    match l
    case TBC => LabelStyle(Warning, "TBC - To be Concern Hazard")
    case PSPP => LabelStyle(Info, "PSPP - Peraturan Sanksi Pelanggaran Prosedur")
    case GR => LabelStyle(Success, "GR - Safety Golden Rules")
  }

  /** No two labels share a long name. */
  lemma LabelFullNamesDistinct(a: HazardLabel, b: HazardLabel)
    ensures LabelConfig(a).fullName == LabelConfig(b).fullName <==> a == b
  {
  }

  /** The short label chips of the header: shown only for a non-empty label list. */
  function HeaderChips(r: HazardReport): (chips: seq<HazardLabel>)
    ensures chips == [] <==> r.labels.None? || r.labels.value == []
    ensures chips != [] ==> chips == r.labels.value
  {
    if r.labels.Some? && |r.labels.value| > 0 then r.labels.value else []
  }

  /** The long-name chips of the AI output card, one per label in order. */
  function OutputChips(r: HazardReport): (names: seq<string>)
    ensures r.labels.None? ==> names == []
    ensures r.labels.Some? ==> |names| == |r.labels.value|
    ensures r.labels.Some? ==> forall i :: 0 <= i < |names| ==>
      names[i] == LabelConfig(r.labels.value[i]).fullName
  {
    if r.labels.None? then []
    else seq(|r.labels.value|, (i: int) requires 0 <= i < |r.labels.value| => LabelConfig(r.labels.value[i]).fullName)
  }

  /** The AI output chips name exactly the labels of the header, in the same order. */
  lemma ChipsAgree(r: HazardReport)
    ensures |OutputChips(r)| == |HeaderChips(r)|
    ensures forall i :: 0 <= i < |HeaderChips(r)| ==>
      LabelName(HeaderChips(r)[i]) + " - " <= OutputChips(r)[i]
  {
  }

  // ---------------------------------------------------------------------
  // Evaluation status

  datatype StatusDisplay = StatusDisplay(text: string, tone: Tone)

  /** The caption and colour of an evaluation status; review-again has no entry. */
  function EvaluationStatusDisplay(s: EvaluationStatus): (d: StatusDisplay)
    ensures d.text == "Unknown" <==> s == PerluReviewUlang
    ensures d.tone == Muted <==> s == BelumDievaluasi || s == PerluReviewUlang
    ensures d.tone == Success <==> s == Selesai
    ensures s == BelumDievaluasi ==> d == StatusDisplay("Belum Dievaluasi", Muted)
    ensures s == DalamEvaluasi ==> d == StatusDisplay("Dalam Evaluasi", Info)
    ensures s == Selesai ==> d == StatusDisplay("Selesai", Success)
    ensures s == PerluReviewUlang ==> d == StatusDisplay("Unknown", Muted)
  {
    match s
    case BelumDievaluasi => StatusDisplay("Belum Dievaluasi", Muted)
    case DalamEvaluasi => StatusDisplay("Dalam Evaluasi", Info)
    case Selesai => StatusDisplay("Selesai", Success)
    case _ => StatusDisplay("Unknown", Muted)
  }

  /** Statuses with an entry show different captions. */
  lemma StatusCaptionsDistinct(a: EvaluationStatus, b: EvaluationStatus)
    requires a != PerluReviewUlang && b != PerluReviewUlang
    ensures EvaluationStatusDisplay(a).text == EvaluationStatusDisplay(b).text <==> a == b
  {
  }

  datatype StatusPanel = StatusPanel(display: StatusDisplay, evaluator: Option<string>)

  /**
   * The evaluation panel of a report: absent without a status; the
   * evaluator line appears only for a non-empty evaluator name.
   */
  function StatusPanelOf(r: HazardReport): (p: Option<StatusPanel>)
    ensures p.None? <==> r.evaluationStatus.None?
    ensures p.Some? ==> p.value.display == EvaluationStatusDisplay(r.evaluationStatus.value)
    ensures p.Some? ==> (p.value.evaluator.Some? <==> r.evaluatorName.Some? && r.evaluatorName.value != "")
    ensures p.Some? && p.value.evaluator.Some? ==> p.value.evaluator == r.evaluatorName
  {
    match r.evaluationStatus
    case None => None
    case Some(s) =>
      var evaluator := if r.evaluatorName.Some? && r.evaluatorName.value != "" then r.evaluatorName else None;
      Some(StatusPanel(EvaluationStatusDisplay(s), evaluator))
  }

  // ---------------------------------------------------------------------
  // Confidence

  /** The colour of a confidence percentage. */
  function ConfidenceTone(score: int): (t: Tone)
    ensures t == Success <==> score >= 90
    ensures t == Warning <==> 80 <= score < 90
    ensures t == Muted <==> score < 80
  {
    if score >= 90 then Success else if score >= 80 then Warning else Muted
  }

  /** A higher confidence never gets a weaker colour. */
  lemma ConfidenceToneMonotone(a: int, b: int)
    requires a <= b
    ensures ConfidenceTone(a) == Success ==> ConfidenceTone(b) == Success
    ensures ConfidenceTone(b) == Muted ==> ConfidenceTone(a) == Muted
  {
  }

  datatype Confidence = Confidence(percent: int, tone: Tone)

  /** The confidence badge and line as intended: hidden for a missing or zero score. */
  function ConfidenceView(r: HazardReport): (c: Option<Confidence>)
    ensures c.None? <==> r.confidenceScore.None? || r.confidenceScore.value == 0
    ensures c.Some? ==> c.value.percent == r.confidenceScore.value
    ensures c.Some? ==> c.value.tone == ConfidenceTone(c.value.percent)
  {
    match r.confidenceScore
    case Some(score) => if score == 0 then None else Some(Confidence(score, ConfidenceTone(score)))
    case None => None
  }

  /**
   * What the header and the AI output card render for the confidence, as
   * written: `score && (...)` yields the number 0 itself for a zero score,
   * and React prints that number as a bare "0".
   */
  datatype ConfidenceRender = NoConfidence | StrayZero | ConfidenceShown(shown: Confidence)

  function ConfidenceAsWritten(r: HazardReport): (v: ConfidenceRender)
    ensures v.NoConfidence? <==> r.confidenceScore.None?
    ensures v.StrayZero? <==> r.confidenceScore == Some(0)
    ensures v.ConfidenceShown? ==> v.shown.percent == r.confidenceScore.value != 0
    ensures v.ConfidenceShown? ==> v.shown.tone == ConfidenceTone(v.shown.percent)
  {
    match r.confidenceScore
    case None => NoConfidence
    case Some(score) => if score == 0 then StrayZero else ConfidenceShown(Confidence(score, ConfidenceTone(score)))
  }

  /** A zero score prints a stray "0", where the intended view shows nothing. */
  lemma ZeroScoreShowsStrayZero(r: HazardReport)
    requires r.confidenceScore == Some(0)
    ensures ConfidenceAsWritten(r) == StrayZero
    ensures ConfidenceView(r).None?
  {
  }

  /** Away from a zero score, the intended view and the rendering as written agree. */
  lemma ConfidenceViewDiffersOnlyAtZero(r: HazardReport)
    requires r.confidenceScore != Some(0)
    ensures ConfidenceView(r).None? <==> ConfidenceAsWritten(r) == NoConfidence
    ensures ConfidenceView(r).Some? ==> ConfidenceAsWritten(r) == ConfidenceShown(ConfidenceView(r).value)
  {
  }

  /** The cluster suggestion line: shown for a non-empty suggestion. */
  function SuggestionLine(r: HazardReport): (s: Option<string>)
    ensures s.Some? <==> r.clusterSuggestion.Some? && r.clusterSuggestion.value != ""
    ensures s.Some? ==> s == r.clusterSuggestion
  {
    if r.clusterSuggestion.Some? && r.clusterSuggestion.value != "" then r.clusterSuggestion else None
  }

  // ---------------------------------------------------------------------
  // Navigation

  /** "Previous" is disabled on the first report. */
  predicate PrevDisabled(currentIndex: int) {
    currentIndex == 1
  }

  /** "Next" is disabled on the last report. */
  predicate NextDisabled(currentIndex: int, totalReports: int) {
    currentIndex == totalReports
  }

  /**
   * Within a list of `totalReports` reports, an enabled button always
   * leads to another position of the list, and a single report has both
   * buttons disabled.
   */
  lemma NavigationStaysInList(currentIndex: int, totalReports: int)
    requires 1 <= currentIndex <= totalReports
    ensures !PrevDisabled(currentIndex) ==> 1 <= currentIndex - 1 <= totalReports
    ensures !NextDisabled(currentIndex, totalReports) ==> 1 <= currentIndex + 1 <= totalReports
    ensures totalReports == 1 ==> PrevDisabled(currentIndex) && NextDisabled(currentIndex, totalReports)
    ensures totalReports > 1 ==> !(PrevDisabled(currentIndex) && NextDisabled(currentIndex, totalReports))
  {
  }

  // ---------------------------------------------------------------------
  // Field fallbacks

  /** `preferred || fallback` for an optional string: an empty string counts as missing. */
  function OrElse(preferred: Option<string>, fallback: string): (s: string)
    ensures s == fallback || (preferred.Some? && s == preferred.value)
    ensures s == "" <==> (preferred.None? || preferred.value == "") && fallback == ""
    ensures preferred.Some? && preferred.value != "" ==> s == preferred.value
  {
    if preferred.Some? && preferred.value != "" then preferred.value else fallback
  }

  /** The location line: the area when given, else the location. */
  function ShownLocation(r: HazardReport): (s: string)
    ensures s == r.lokasi || r.lokasiArea == Some(s)
    ensures s == "" ==> r.lokasi == ""
    ensures r.lokasiArea.Some? && r.lokasiArea.value != "" ==> s == r.lokasiArea.value
    ensures r.lokasiArea.None? || r.lokasiArea.value == "" ==> s == r.lokasi
  {
    OrElse(r.lokasiArea, r.lokasi)
  }

  /** The non-compliance line: the non-compliance when given, else the hazard type. */
  function ShownNonCompliance(r: HazardReport): (s: string)
    ensures s == r.jenisHazard || r.ketidaksesuaian == Some(s)
    ensures s == "" ==> r.jenisHazard == ""
    ensures r.ketidaksesuaian.Some? && r.ketidaksesuaian.value != "" ==> s == r.ketidaksesuaian.value
    ensures r.ketidaksesuaian.None? || r.ketidaksesuaian.value == "" ==> s == r.jenisHazard
  {
    OrElse(r.ketidaksesuaian, r.jenisHazard)
  }

  /** The sub non-compliance line: the sub non-compliance when given, else the hazard subtype. */
  function ShownSubNonCompliance(r: HazardReport): (s: string)
    ensures s == r.subJenisHazard || r.subKetidaksesuaian == Some(s)
    ensures s == "" ==> r.subJenisHazard == ""
    ensures r.subKetidaksesuaian.Some? && r.subKetidaksesuaian.value != "" ==> s == r.subKetidaksesuaian.value
    ensures r.subKetidaksesuaian.None? || r.subKetidaksesuaian.value == "" ==> s == r.subJenisHazard
  {
    OrElse(r.subKetidaksesuaian, r.subJenisHazard)
  }

  /**
   * Filling in an optional field changes its line to it; clearing it or
   * leaving it empty falls back, and the other lines do not move.
   */
  lemma FallbackFollowsField(r: HazardReport, text: string)
    ensures text != "" ==> ShownLocation(r.(lokasiArea := Some(text))) == text
    ensures ShownLocation(r.(lokasiArea := Some(""))) == r.lokasi
    ensures ShownLocation(r.(lokasiArea := None)) == r.lokasi
    ensures text != "" ==> ShownNonCompliance(r.(ketidaksesuaian := Some(text))) == text
    ensures ShownNonCompliance(r.(ketidaksesuaian := Some(""))) == r.jenisHazard
    ensures ShownNonCompliance(r.(ketidaksesuaian := None)) == r.jenisHazard
    ensures text != "" ==> ShownSubNonCompliance(r.(subKetidaksesuaian := Some(text))) == text
    ensures ShownSubNonCompliance(r.(subKetidaksesuaian := Some(""))) == r.subJenisHazard
    ensures ShownSubNonCompliance(r.(subKetidaksesuaian := None)) == r.subJenisHazard
    ensures ShownNonCompliance(r.(lokasiArea := Some(text))) == ShownNonCompliance(r)
    ensures ShownLocation(r.(ketidaksesuaian := Some(text))) == ShownLocation(r)
  {
  }
}

=== FILE: report_list.dfy ===
/**
 * The report list beside the evaluator dashboard: free-text search and
 * the label and hazard filters, ordering by report time, pagination with
 * a three-button page window, the filter state machine and the
 * "n hari lalu" age label.
 *
 * Report times come from parsing dates, which is left to the caller: the
 * ordering is taken over an arbitrary integer time key `time`.
 */
module ReportList {
  import opened Wrappers
  import opened Reports
  import Text
  import Seqs
  import StableSort

  // ---------------------------------------------------------------------
  // Label colours

  /** The colour of a label chip in the list; unknown names are muted. */
  function LabelColor(name: string): (t: Tone)
    ensures t != Muted <==> exists l: HazardLabel :: LabelName(l) == name
  {
    assert LabelName(TBC) == "TBC" && LabelName(PSPP) == "PSPP" && LabelName(GR) == "GR";
    match name
    case "TBC" => Warning
    case "PSPP" => Info
    case "GR" => Success
    case _ => Muted
  }

  /** Distinct labels get distinct chip colours. */
  lemma LabelColorsDistinct(a: HazardLabel, b: HazardLabel)
    ensures LabelColor(LabelName(a)) == LabelColor(LabelName(b)) <==> a == b
  {
  }

  // ---------------------------------------------------------------------
  // Age label

  /** The Indonesian month abbreviations, January first. */
  const MonthNames: seq<string> :=
    ["Jan", "Feb", "Mar", "Apr", "Mei", "Jun", "Jul", "Agu", "Sep", "Okt", "Nov", "Des"]

  /** The zero-based month of an abbreviation, or -1 for an unknown one. */
  function MonthIndex(abbr: string): (m: int)
    ensures -1 <= m < 12
    ensures m == -1 <==> abbr !in MonthNames
    ensures m >= 0 ==> MonthNames[m] == abbr
  {
    Seqs.IndexOf(MonthNames, abbr)
  }

  lemma MonthNamesDistinct()
    ensures Distinct(MonthNames)
  {
  }

  /** Every month's abbreviation reads back as that month. */
  lemma MonthIndexRoundTrip(m: nat)
    requires m < 12
    ensures MonthIndex(MonthNames[m]) == m
  {
    MonthNamesDistinct();
  }

  /** How long ago a report was made, given the whole days elapsed. */
  function AgeLabel(diffDays: nat): (text: string)
    ensures diffDays == 0 <==> text == "Hari ini"
    ensures diffDays >= 1 ==> text == Text.NatToString(diffDays) + " hari lalu"
  {
    if diffDays == 0 then "Hari ini"
    else if diffDays == 1 then "1 hari lalu"
    else Text.NatToString(diffDays) + " hari lalu"
  }

  /** The number in front of " hari lalu" reads back as the day count. */
  lemma AgeLabelReadsBack(diffDays: nat)
    requires diffDays >= 1
    ensures |AgeLabel(diffDays)| > 10
    ensures Text.AllDigits(AgeLabel(diffDays)[..|AgeLabel(diffDays)| - 10])
    ensures Text.ParseDigits(AgeLabel(diffDays)[..|AgeLabel(diffDays)| - 10]) == diffDays
  {
    var digits := Text.NatToString(diffDays);
    assert AgeLabel(diffDays)[..|AgeLabel(diffDays)| - 10] == digits;
    Text.ParseNatToString(diffDays);
  }

  /** Different day counts never share a label. */
  lemma AgeLabelInjective(a: nat, b: nat)
    ensures AgeLabel(a) == AgeLabel(b) <==> a == b
  {
    if AgeLabel(a) == AgeLabel(b) && a >= 1 && b >= 1 {
      AgeLabelReadsBack(a);
      AgeLabelReadsBack(b);
    }
  }

  // ---------------------------------------------------------------------
  // Filter state

  /** The list's own state; the selected report belongs to the parent. */
  datatype ListState = ListState(
    searchTerm: string,
    labelFilter: string,
    hazardFilter: string,
    sortOrder: string,
    currentPage: int)

  /** No search, no filters, newest first, first page. */
  const InitialList := ListState("", "all", "all", "desc", 1)

  /** The clear button is shown; the search term does not count as a filter. */
  predicate HasActiveFilters(st: ListState) {
    st.labelFilter != "all" || st.hazardFilter != "all" || st.sortOrder != "desc"
  }

  /** A quick label button: clicking the active label clears it, any other selects it. */
  function ToggleLabel(st: ListState, tag: HazardLabel): (r: ListState)
    ensures r.labelFilter == "all" <==> st.labelFilter == LabelName(tag)
    ensures r.labelFilter != "all" ==> r.labelFilter == LabelName(tag)
    ensures r.currentPage == 1
    ensures r.(labelFilter := st.labelFilter, currentPage := st.currentPage) == st
  {
    st.(labelFilter := if st.labelFilter == LabelName(tag) then "all" else LabelName(tag),
        currentPage := 1)
  }

  /** Clearing the filters resets label, hazard and order but keeps the search. */
  function ClearFilters(st: ListState): (r: ListState)
    ensures !HasActiveFilters(r)
    ensures r.searchTerm == st.searchTerm
    ensures r.currentPage == 1
  {
    st.(labelFilter := "all", hazardFilter := "all", sortOrder := "desc", currentPage := 1)
  }

  /** Clicking a label twice leaves the label filter as it was, when it was off or on that label. */
  lemma ToggleLabelTwice(st: ListState, tag: HazardLabel)
    requires st.labelFilter == "all" || st.labelFilter == LabelName(tag)
    ensures ToggleLabel(ToggleLabel(st, tag), tag).labelFilter == st.labelFilter
  {
  }

  // ---------------------------------------------------------------------
  // Search and filters

  /** Case-insensitive substring test of one field. */
  function FieldMatches(field: string, term: string): (m: bool)
    ensures m <==> Text.Includes(Text.Lower(field), Text.Lower(term))
  {
    Text.Contains(Text.Lower(field), Text.Lower(term))
  }

  /** The search matches the id, reporter, location or finding of `r`. */
  predicate MatchesSearch(r: HazardReport, term: string) {
    term == ""
    || FieldMatches(r.id, term)
    || FieldMatches(r.pelapor, term)
    || FieldMatches(r.lokasi, term)
    || FieldMatches(r.deskripsiTemuan, term)
  }

  /** `r` carries a label whose name is `name`. */
  predicate HasLabel(r: HazardReport, name: string) {
    r.labels.Some? && exists i :: 0 <= i < |r.labels.value| && LabelName(r.labels.value[i]) == name
  }

  predicate MatchesLabel(r: HazardReport, labelFilter: string) {
    labelFilter == "all" || HasLabel(r, labelFilter)
  }

  predicate MatchesHazard(r: HazardReport, hazardFilter: string) {
    hazardFilter == "all" || r.jenisHazard == hazardFilter
  }

  /** The three conditions a report must meet to stay in the list. */
  predicate Keep(r: HazardReport, st: ListState) {
    MatchesSearch(r, st.searchTerm) && MatchesLabel(r, st.labelFilter) && MatchesHazard(r, st.hazardFilter)
  }

  /** `Keep` as a test that depends only on the three filter fields. */
  function Matcher(term: string, labelFilter: string, hazardFilter: string): HazardReport -> bool {
    (r: HazardReport) => MatchesSearch(r, term) && MatchesLabel(r, labelFilter) && MatchesHazard(r, hazardFilter)
  }

  /**
   * The reports meeting every condition, in their original order: each
   * occurrence of a kept report survives, nothing else does.
   */
  function FilterReports(reports: seq<HazardReport>, st: ListState): (kept: seq<HazardReport>)
    ensures Seqs.IsSubsequence(kept, reports)
    ensures forall r :: multiset(kept)[r] == if Keep(r, st) then multiset(reports)[r] else 0
    ensures forall r :: r in kept <==> r in reports && Keep(r, st)
  {
    var kept := Seqs.Filter(reports, Matcher(st.searchTerm, st.labelFilter, st.hazardFilter));
    assert forall r :: r in kept <==> multiset(kept)[r] > 0;
    assert forall r :: r in reports <==> multiset(reports)[r] > 0;
    kept
  }

  /** Search is blind to ASCII case: terms with the same lower-case form match the same reports. */
  lemma SearchIgnoresCase(r: HazardReport, t1: string, t2: string)
    requires Text.Lower(t1) == Text.Lower(t2)
    ensures MatchesSearch(r, t1) == MatchesSearch(r, t2)
  {
    assert t1 == "" <==> Text.Lower(t1) == "";
    assert t2 == "" <==> Text.Lower(t2) == "";
  }

  /** With an empty search and both filters at "all", nothing is filtered out. */
  lemma NoFilterKeepsAll(reports: seq<HazardReport>, st: ListState)
    requires st.searchTerm == "" && st.labelFilter == "all" && st.hazardFilter == "all"
    ensures FilterReports(reports, st) == reports
  {
    Seqs.FilterAll(reports, Matcher(st.searchTerm, st.labelFilter, st.hazardFilter));
  }

  /** After switching a label on, every listed report carries that label. */
  lemma LabelFilterSelects(reports: seq<HazardReport>, st: ListState, tag: HazardLabel)
    requires st.labelFilter != LabelName(tag)
    ensures forall r :: r in FilterReports(reports, ToggleLabel(st, tag)) ==>
      r.labels.Some? && tag in r.labels.value
  {
    forall r | r in FilterReports(reports, ToggleLabel(st, tag))
      ensures r.labels.Some? && tag in r.labels.value
    {
      assert HasLabel(r, LabelName(tag));
      var i :| 0 <= i < |r.labels.value| && LabelName(r.labels.value[i]) == LabelName(tag);
      assert r.labels.value[i] == tag;
    }
  }

  /** After clearing the filters only the search decides what is listed. */
  lemma ClearedListMatchesSearch(reports: seq<HazardReport>, st: ListState)
    ensures forall r :: r in FilterReports(reports, ClearFilters(st)) <==>
      r in reports && MatchesSearch(r, st.searchTerm)
  {
  }

  // ---------------------------------------------------------------------
  // Ordering by time

  /** The key the list ascends in: the time, or its negation for newest first. */
  function TimeKey(sortOrder: string, time: HazardReport -> int): HazardReport -> int {
    (r: HazardReport) => if sortOrder == "asc" then time(r) else -time(r)
  }

  /** The list's comparator: oldest first for "asc", newest first otherwise. */
  function TimeComparator(sortOrder: string, time: HazardReport -> int): (HazardReport, HazardReport) -> int {
    (a: HazardReport, b: HazardReport) => if sortOrder == "asc" then time(a) - time(b) else time(b) - time(a)
  }

  function SortByTime(rs: seq<HazardReport>, sortOrder: string, time: HazardReport -> int): (sorted: seq<HazardReport>)
    ensures multiset(sorted) == multiset(rs)
    ensures |sorted| == |rs|
  {
    StableSort.SortPermutes(rs, TimeComparator(sortOrder, time));
    StableSort.Sort(rs, TimeComparator(sortOrder, time))
  }

  lemma ComparatorIsTimeDifference(rs: seq<HazardReport>, sortOrder: string, time: HazardReport -> int)
    ensures StableSort.AgreesWith(TimeComparator(sortOrder, time), TimeKey(sortOrder, time), rs)
  {
  }

  /** The sorted list ascends in time for "asc" and descends for any other order. */
  lemma SortByTimeOrdered(rs: seq<HazardReport>, sortOrder: string, time: HazardReport -> int)
    ensures sortOrder == "asc" ==> forall i, j :: 0 <= i < j < |SortByTime(rs, sortOrder, time)| ==>
      time(SortByTime(rs, sortOrder, time)[i]) <= time(SortByTime(rs, sortOrder, time)[j])
    ensures sortOrder != "asc" ==> forall i, j :: 0 <= i < j < |SortByTime(rs, sortOrder, time)| ==>
      time(SortByTime(rs, sortOrder, time)[i]) >= time(SortByTime(rs, sortOrder, time)[j])
  {
    var key := TimeKey(sortOrder, time);
    ComparatorIsTimeDifference(rs, sortOrder, time);
    StableSort.SortAscending(rs, TimeComparator(sortOrder, time), key);
    var sorted := SortByTime(rs, sortOrder, time);
    forall i, j | 0 <= i < j < |sorted|
      ensures sortOrder == "asc" ==> time(sorted[i]) <= time(sorted[j])
      ensures sortOrder != "asc" ==> time(sorted[i]) >= time(sorted[j])
    {
      assert key(sorted[i]) <= key(sorted[j]);
    }
  }

  /** The reports of one time value, in order. */
  ghost function AtTime(s: seq<HazardReport>, sortOrder: string, time: HazardReport -> int, t: int): seq<HazardReport> {
    StableSort.WithKey(s, TimeKey(sortOrder, time), if sortOrder == "asc" then t else -t)
  }

  /** Reports with the same time keep their filtered order. */
  lemma SortByTimeStable(rs: seq<HazardReport>, sortOrder: string, time: HazardReport -> int, t: int)
    ensures AtTime(SortByTime(rs, sortOrder, time), sortOrder, time, t) == AtTime(rs, sortOrder, time, t)
  {
    ComparatorIsTimeDifference(rs, sortOrder, time);
    StableSort.SortStable(rs, TimeComparator(sortOrder, time), TimeKey(sortOrder, time),
      if sortOrder == "asc" then t else -t);
  }

  /** The filtered and ordered list the panel pages through. */
  function Visible(reports: seq<HazardReport>, st: ListState, time: HazardReport -> int): (v: seq<HazardReport>)
    ensures multiset(v) == multiset(FilterReports(reports, st))
    ensures forall r :: r in v <==> r in reports && Keep(r, st)
  {
    var v := SortByTime(FilterReports(reports, st), st.sortOrder, time);
    assert forall r :: r in v <==> r in multiset(v);
    v
  }

  // ---------------------------------------------------------------------
  // Hazard-type options

  /** The hazard type of each report, in order. */
  function HazardColumn(rs: seq<HazardReport>): (hs: seq<string>)
    ensures |hs| == |rs|
    ensures forall i :: 0 <= i < |rs| ==> hs[i] == rs[i].jenisHazard
  {
    if rs == [] then [] else [rs[0].jenisHazard] + HazardColumn(rs[1..])
  }

  /**
   * The options of the hazard dropdown: each non-empty hazard type once,
   * in order of first appearance.
   */
  method HazardTypes(reports: seq<HazardReport>) returns (types: seq<string>)
    ensures Distinct(types)
    ensures forall t :: t in types <==> t != "" && exists i :: 0 <= i < |reports| && reports[i].jenisHazard == t
    ensures Seqs.IsSubsequence(types, HazardColumn(reports))
    ensures forall a, b :: 0 <= a < b < |types| ==>
      Seqs.IndexOf(HazardColumn(reports), types[a]) < Seqs.IndexOf(HazardColumn(reports), types[b])
  {
    var column := HazardColumn(reports);
    types := UniqueNonEmpty(column);
    forall t | t in column ensures exists i :: 0 <= i < |reports| && reports[i].jenisHazard == t {
      var i :| 0 <= i < |column| && column[i] == t;
      assert reports[i].jenisHazard == t;
    }
  }

  /** `[...new Set(column.filter(Boolean))]`: the non-empty values once each, by first appearance. */
  method UniqueNonEmpty(column: seq<string>) returns (types: seq<string>)
    ensures Distinct(types)
    ensures forall t :: t in types <==> t != "" && t in column
    ensures Seqs.IsSubsequence(types, column)
    ensures forall a, b :: 0 <= a < b < |types| ==>
      Seqs.IndexOf(column, types[a]) < Seqs.IndexOf(column, types[b])
  {
    types := [];
    ghost var firsts: seq<int> := [];
    var i := 0;
    while i < |column|
      invariant 0 <= i <= |column|
      invariant Distinct(types)
      invariant forall t :: t in types <==> t != "" && t in column[..i]
      invariant Seqs.IsSubsequence(types, column[..i])
      invariant FirstPositions(column, types, firsts, i)
    {
      var h := column[i];
      assert column[..i + 1] == column[..i] + [h];
      Seqs.SubsequenceSnoc(types, column[..i], h);
      if h != "" && h !in types {
        assert h !in column[..i];
        firsts := firsts + [i];
        types := types + [h];
      }
      i := i + 1;
    }
    assert column[..i] == column;
    FirstPositionsOrder(column, types, firsts);
  }

  /**
   * `firsts[a]` is where `types[a]` first occurs in `column`, below `bound`,
   * and the positions increase along `types`.
   */
  ghost predicate FirstPositions(column: seq<string>, types: seq<string>, firsts: seq<int>, bound: int) {
    && |firsts| == |types|
    && (forall a :: 0 <= a < |firsts| ==> 0 <= firsts[a] < bound <= |column|)
    && (forall a :: 0 <= a < |firsts| ==> column[firsts[a]] == types[a] && types[a] !in column[..firsts[a]])
    && (forall a, b :: 0 <= a < b < |firsts| ==> firsts[a] < firsts[b])
  }

  /** Recorded first positions are what `indexOf` finds, so the list follows first appearance. */
  lemma FirstPositionsOrder(column: seq<string>, types: seq<string>, firsts: seq<int>)
    requires FirstPositions(column, types, firsts, |column|)
    ensures forall a, b :: 0 <= a < b < |types| ==>
      Seqs.IndexOf(column, types[a]) < Seqs.IndexOf(column, types[b])
  {
    forall a | 0 <= a < |types| ensures Seqs.IndexOf(column, types[a]) == firsts[a] {
      assert forall k :: 0 <= k < firsts[a] ==> column[k] == column[..firsts[a]][k];
    }
  }

  // ---------------------------------------------------------------------
  // Pagination

  const ItemsPerPage: nat := 10

  /** `Math.ceil(n / 10)`. */
  function TotalPages(n: nat): (t: nat)
    ensures n <= t * ItemsPerPage
    ensures t == 0 || (t - 1) * ItemsPerPage < n
  {
    (n + ItemsPerPage - 1) / ItemsPerPage
  }

  /** How `Array.prototype.slice` reads an index: negatives count from the end, then clamp. */
  function SliceIndex(i: int, n: nat): (k: nat)
    ensures k <= n
    ensures 0 <= i <= n ==> k == i
  {
    if i < 0 then (if n + i < 0 then 0 else n + i)
    else if i > n then n
    else i
  }

  /** `s.slice(start, end)`. */
  function Slice<T>(s: seq<T>, start: int, end: int): (r: seq<T>)
    ensures SliceIndex(start, |s|) < SliceIndex(end, |s|) ==>
      r == s[SliceIndex(start, |s|)..SliceIndex(end, |s|)]
    ensures SliceIndex(start, |s|) >= SliceIndex(end, |s|) ==> r == []
  {
    var a := SliceIndex(start, |s|);
    var b := SliceIndex(end, |s|);
    if a < b then s[a..b] else []
  }

  function Min(a: int, b: int): int {
    if a <= b then a else b
  }

  /** The reports shown on page `page`, counted from 1. */
  function PageItems<T>(s: seq<T>, page: int): (items: seq<T>)
    ensures |items| <= ItemsPerPage
  {
    var start := (page - 1) * ItemsPerPage;
    Slice(s, start, start + ItemsPerPage)
  }

  /** From page 1 on, page `p` is the next run of at most ten items. */
  lemma PageItemsRange<T>(s: seq<T>, page: int)
    requires page >= 1
    ensures Min((page - 1) * ItemsPerPage, |s|) <= Min(page * ItemsPerPage, |s|)
    ensures PageItems(s, page) == s[Min((page - 1) * ItemsPerPage, |s|)..Min(page * ItemsPerPage, |s|)]
    ensures page <= TotalPages(|s|) ==> |PageItems(s, page)| > 0
    ensures page < TotalPages(|s|) ==> |PageItems(s, page)| == ItemsPerPage
  {
  }

  /** Pages 1 to `k`, one after another. */
  function PagesUpTo<T>(s: seq<T>, k: nat): seq<T> {
    if k == 0 then [] else PagesUpTo(s, k - 1) + PageItems(s, k)
  }

  lemma {:induction false} PagesUpToPrefix<T>(s: seq<T>, k: nat)
    ensures PagesUpTo(s, k) == s[..Min(k * ItemsPerPage, |s|)]
  {
    if k > 0 {
      PagesUpToPrefix(s, k - 1);
      PageItemsRange(s, k);
    }
  }

  /** Reading every page in turn gives back the whole list. */
  lemma PagesCoverList<T>(s: seq<T>)
    ensures PagesUpTo(s, TotalPages(|s|)) == s
  {
    PagesUpToPrefix(s, TotalPages(|s|));
  }

  /** The number of the button at position `i` of the page window. */
  function WindowButton(current: int, total: nat, i: nat): int {
    if total <= 3 then i + 1
    else if current <= 2 then i + 1
    else if current >= total - 1 then total - 2 + i
    else current - 1 + i
  }

  /**
   * The numbered page buttons: up to three consecutive pages, all of them
   * real pages, whatever the current page is. With more than three pages
   * the window starts one before the current page, pushed back inside
   * 1..total.
   */
  function PageWindow(current: int, total: nat): (w: seq<int>)
    ensures |w| == Min(3, total)
    ensures |w| > 0 && total <= 3 ==> w[0] == 1
    ensures total > 3 ==> w[0] == if current - 1 < 1 then 1 else Min(current - 1, total - 2)
    ensures forall i :: 0 <= i < |w| ==> 1 <= w[i] <= total
    ensures forall i :: 0 <= i < |w| - 1 ==> w[i + 1] == w[i] + 1
  {
    seq(Min(3, total), (i: int) requires 0 <= i => WindowButton(current, total, i))
  }

  /** When the current page is a real page, it has a button. */
  lemma PageWindowShowsCurrent(current: int, total: nat)
    requires 1 <= current <= total
    ensures current in PageWindow(current, total)
  {
    var w := PageWindow(current, total);
    if total <= 3 || current <= 2 {
      assert w[current - 1] == current;
    } else if current >= total - 1 {
      assert w[current - total + 2] == current;
    } else {
      assert w[1] == current;
    }
  }

  /** The previous-page button is disabled on the first page. */
  predicate PrevDisabled(current: int) {
    current == 1
  }

  /** The next-page button is disabled on the last page and when there are no pages. */
  predicate NextDisabled(current: int, total: nat) {
    current == total || total == 0
  }

  /** The page count shown in "Hal c / t": never 0. */
  function DisplayedTotal(total: nat): (d: nat)
    ensures d >= 1
    ensures total >= 1 ==> d == total
    ensures total == 0 ==> d == 1
  {
    if total == 0 then 1 else total
  }

  // ---------------------------------------------------------------------
  // Events

  datatype ListEvent =
    | TypeSearch(term: string)
    | ClickLabel(tag: HazardLabel)
    | PickHazard(hazard: string)
    | PickSortOrder(order: string)
    | ClickClear
    | ClickPrev
    | ClickNext
    | ClickPageButton(index: nat)

  /** The pages the current filters produce. */
  function TotalFor(reports: seq<HazardReport>, st: ListState): nat {
    TotalPages(|FilterReports(reports, st)|)
  }

  /**
   * The panel's reaction to one user event. Every change of search,
   * label, hazard or order returns to page 1; paging leaves the filters
   * alone; a disabled or missing button does nothing. The clear button is
   * only rendered while a filter is active.
   */
  function Step(reports: seq<HazardReport>, st: ListState, e: ListEvent): (r: ListState)
    ensures (e.TypeSearch? || e.ClickLabel? || e.PickHazard? || e.PickSortOrder?) ==>
      r.currentPage == 1
    ensures e.ClickClear? && HasActiveFilters(st) ==> r.currentPage == 1
    ensures (e.ClickPrev? || e.ClickNext? || e.ClickPageButton?) ==>
      r.(currentPage := st.currentPage) == st
    ensures e.TypeSearch? ==> r == st.(searchTerm := e.term, currentPage := 1)
    ensures e.PickHazard? ==> r == st.(hazardFilter := e.hazard, currentPage := 1)
    ensures e.PickSortOrder? ==> r == st.(sortOrder := e.order, currentPage := 1)
    ensures e.ClickLabel? ==> r == ToggleLabel(st, e.tag)
    ensures e.ClickClear? && HasActiveFilters(st) ==> r == ClearFilters(st)
    ensures e.ClickClear? && !HasActiveFilters(st) ==> r == st
    ensures e.ClickPrev? ==>
      r.currentPage == if PrevDisabled(st.currentPage) then st.currentPage else st.currentPage - 1
    ensures e.ClickNext? ==>
      r.currentPage == if NextDisabled(st.currentPage, TotalFor(reports, st)) then st.currentPage else st.currentPage + 1
    ensures e.ClickPageButton? && e.index < |PageWindow(st.currentPage, TotalFor(reports, st))| ==>
      r.currentPage == PageWindow(st.currentPage, TotalFor(reports, st))[e.index]
    ensures e.ClickPageButton? && e.index >= |PageWindow(st.currentPage, TotalFor(reports, st))| ==> r == st
  {
    match e
    case TypeSearch(term) => st.(searchTerm := term, currentPage := 1)
    case ClickLabel(tag) => ToggleLabel(st, tag)
    case PickHazard(hazard) => st.(hazardFilter := hazard, currentPage := 1)
    case PickSortOrder(order) => st.(sortOrder := order, currentPage := 1)
    case ClickClear => if HasActiveFilters(st) then ClearFilters(st) else st
    case ClickPrev =>
      if PrevDisabled(st.currentPage) then st else st.(currentPage := st.currentPage - 1)
    case ClickNext =>
      if NextDisabled(st.currentPage, TotalFor(reports, st)) then st else st.(currentPage := st.currentPage + 1)
    case ClickPageButton(index) =>
      var w := PageWindow(st.currentPage, TotalFor(reports, st));
      if index < |w| then st.(currentPage := w[index]) else st
  }

  /**
   * The clear button is shown exactly when clearing would change a filter;
   * without it, the clear event leaves the list as it is.
   */
  lemma ClearButtonShownWhenActive(reports: seq<HazardReport>, st: ListState)
    ensures HasActiveFilters(st) <==> ClearFilters(st).(currentPage := st.currentPage) != st
    ensures !HasActiveFilters(st) ==> Step(reports, st, ClickClear) == st
    ensures HasActiveFilters(st) ==> !HasActiveFilters(Step(reports, st, ClickClear))
  {
  }

  /** The current page is one the "Hal c / t" line can show. */
  predicate PageValid(reports: seq<HazardReport>, st: ListState) {
    1 <= st.currentPage <= DisplayedTotal(TotalFor(reports, st))
  }

  /** The panel opens on a valid page, and no event leads off the valid pages. */
  lemma StepKeepsPageValid(reports: seq<HazardReport>, st: ListState, e: ListEvent)
    requires PageValid(reports, st)
    ensures PageValid(reports, InitialList)
    ensures PageValid(reports, Step(reports, st, e))
  {
    var total := TotalFor(reports, st);
    match e
    case ClickPrev =>
      assert TotalFor(reports, Step(reports, st, e)) == total;
    case ClickNext =>
      assert TotalFor(reports, Step(reports, st, e)) == total;
    case ClickPageButton(index) =>
      assert TotalFor(reports, Step(reports, st, e)) == total;
    case _ =>
  }

  /** On a valid page the window contains the current page and every shown item belongs to the filtered list. */
  lemma ValidPageShowsWindow(reports: seq<HazardReport>, st: ListState, time: HazardReport -> int)
    requires PageValid(reports, st) && TotalFor(reports, st) >= 1
    ensures st.currentPage in PageWindow(st.currentPage, TotalFor(reports, st))
    ensures 0 < |PageItems(Visible(reports, st, time), st.currentPage)| <= ItemsPerPage
  {
    var v := Visible(reports, st, time);
    assert |v| == |FilterReports(reports, st)|;
    PageWindowShowsCurrent(st.currentPage, TotalFor(reports, st));
    PageItemsRange(v, st.currentPage);
  }
}

=== FILE: reports.dfy ===
/**
 * The record shapes and closed enumerations of the hazard-report data:
 * clusters, reports and the duplicate-similarity scores attached to
 * cluster members.
 *
 * Scores that the application writes as two-decimal fractions in [0, 1] are
 * kept here as integer hundredths in [0, 100]; only comparisons between
 * them are ever made.
 */
module Reports {
  import opened Wrappers

  /** A score in hundredths: 0.75 is written 75. */
  type Hundredths = x: int | 0 <= x <= 100

  /** Pipeline status of the AI triage step. */
  datatype AIStatus = MenungguAnalisisAI | SedangAnalisisAI | AIGagal | AISelesai

  /** Human evaluation status, present only once AI triage is done. */
  datatype EvaluationStatus = BelumDievaluasi | DalamEvaluasi | Selesai | PerluReviewUlang

  /** Service-level traffic light. */
  datatype SLAStatus = Hijau | Kuning | Merah

  /** The three hazard label families. */
  datatype HazardLabel = TBC | PSPP | GR

  /** Informational duplicate verdict carried by a cluster descriptor. */
  datatype ClusterStatus = DuplikatKuat | DuplikatMungkin | BukanDuplikat

  /** The similarity dimensions a duplicate score set carries. */
  datatype Dimension = Overall | RuleBased | Geo | Lexical | Semantic

  const AllAIStatuses: seq<AIStatus> :=
    [MenungguAnalisisAI, SedangAnalisisAI, AIGagal, AISelesai]
  const AllEvaluationStatuses: seq<EvaluationStatus> :=
    [BelumDievaluasi, DalamEvaluasi, Selesai, PerluReviewUlang]
  const AllSLAStatuses: seq<SLAStatus> := [Hijau, Kuning, Merah]
  const AllHazardLabels: seq<HazardLabel> := [TBC, PSPP, GR]

  /** The label's name as it appears in the data and in the filter state. */
  function LabelName(l: HazardLabel): string {
    match l
    case TBC => "TBC"
    case PSPP => "PSPP"
    case GR => "GR"
  }

  /** Similarity of a cluster member to the cluster's representative. */
  datatype DuplicateScores = DuplicateScores(
    overall: Hundredths,
    ruleBased: Hundredths,
    geo: Hundredths,
    lexical: Hundredths,
    semantic: Hundredths)
  {
    /** The score along one dimension. */
    function Get(d: Dimension): Hundredths {
      match d
      case Overall => overall
      case RuleBased => ruleBased
      case Geo => geo
      case Lexical => lexical
      case Semantic => semantic
    }
  }

  /** Contribution of each clustering rule to a cluster's similarity. */
  datatype ClusterComponents = ClusterComponents(
    locationRadius: Hundredths,
    locationName: Hundredths,
    detailLocation: Hundredths,
    locationDescription: Hundredths,
    nonCompliance: Hundredths,
    subNonCompliance: Hundredths,
    imageContext: Hundredths,
    findingDescription: Hundredths)

  datatype ClusterInfo = ClusterInfo(
    id: string,
    name: string,
    reportCount: nat,
    similarityScore: Hundredths,
    status: ClusterStatus,
    components: ClusterComponents)

  /**
   * One safety observation. Optional fields of the application are `Option`s and
   * default to None; `cluster` is None for a report not (yet) clustered.
   * `duplicateScores` is read by the cluster panel but is not declared by
   * the application's record type; it is an optional field here.
   */
  datatype HazardReport = HazardReport(
    id: string,
    tanggal: string,
    pelapor: string,
    lokasi: string,
    jenisHazard: string,
    subJenisHazard: string,
    cluster: Option<string>,
    site: string,
    detailLokasi: string,
    deskripsiTemuan: string,
    aiStatus: AIStatus,
    lokasiArea: Option<string> := None,
    ketidaksesuaian: Option<string> := None,
    subKetidaksesuaian: Option<string> := None,
    timestamp: Option<string> := None,
    labels: Option<seq<HazardLabel>> := None,
    confidenceScore: Option<int> := None,
    clusterSuggestion: Option<string> := None,
    evaluationStatus: Option<EvaluationStatus> := None,
    evaluatorName: Option<string> := None,
    slaStatus: Option<SLAStatus> := None,
    duplicateScores: Option<DuplicateScores> := None)

  /** Every element of `xs` occurs once. */
  predicate Distinct<T(==)>(xs: seq<T>) {
    forall i, j :: 0 <= i < j < |xs| ==> xs[i] != xs[j]
  }

  /** No two reports of `rs` share an id. */
  predicate DistinctIds(rs: seq<HazardReport>) {
    forall i, j :: 0 <= i < j < |rs| ==> rs[i].id != rs[j].id
  }

  /** The ids of `rs`, in order. */
  function Ids(rs: seq<HazardReport>): (ids: seq<string>)
    ensures |ids| == |rs|
    ensures forall i :: 0 <= i < |rs| ==> ids[i] == rs[i].id
  {
    if rs == [] then [] else [rs[0].id] + Ids(rs[1..])
  }

  /** The colour family a view gives a label, status or score. */
  datatype Tone = Muted | Info | Success | Warning | Destructive
}

=== FILE: seqs.dfy ===
/** `Array.prototype.filter` and the subsequence relation it establishes. */
module Seqs {

  /** `a` can be obtained from `b` by deleting elements. */
  ghost predicate IsSubsequence<T>(a: seq<T>, b: seq<T>)
    decreases |b|
  {
    a == [] || (b != [] && ((a[0] == b[0] && IsSubsequence(a[1..], b[1..])) || IsSubsequence(a, b[1..])))
  }

  /**
   * The elements of `s` that satisfy `p`, in their order in `s`: a
   * subsequence of `s` that keeps every occurrence of every element
   * satisfying `p` and nothing else.
   */
  function Filter<T(==,!new)>(s: seq<T>, p: T -> bool): (r: seq<T>)
    ensures IsSubsequence(r, s)
    ensures forall x :: x in r ==> p(x)
    ensures forall x :: multiset(r)[x] == if p(x) then multiset(s)[x] else 0
  {
    if s == [] then []
    else
      assert s == [s[0]] + s[1..];
      if p(s[0]) then [s[0]] + Filter(s[1..], p) else Filter(s[1..], p)
  }

  lemma {:induction false} FilterAll<T(!new)>(s: seq<T>, p: T -> bool)
    requires forall x :: x in s ==> p(x)
    ensures Filter(s, p) == s
  {
    if s != [] {
      FilterAll(s[1..], p);
    }
  }

  /** Appending one element to both sides keeps a subsequence a subsequence. */
  lemma {:induction false} SubsequenceSnoc<T>(a: seq<T>, b: seq<T>, x: T)
    requires IsSubsequence(a, b)
    ensures IsSubsequence(a + [x], b + [x])
    ensures IsSubsequence(a, b + [x])
    decreases |b|
  {
    if a == [] {
      SingletonSubsequence(b, x);
      assert a + [x] == [x];
    } else {
      assert (a + [x])[0] == a[0] && (a + [x])[1..] == a[1..] + [x];
      assert (b + [x])[0] == b[0] && (b + [x])[1..] == b[1..] + [x];
      if a[0] == b[0] && IsSubsequence(a[1..], b[1..]) {
        SubsequenceSnoc(a[1..], b[1..], x);
      } else {
        SubsequenceSnoc(a, b[1..], x);
      }
    }
  }

  /** A single element is a subsequence of any sequence that ends with it. */
  lemma {:induction false} SingletonSubsequence<T>(b: seq<T>, x: T)
    ensures IsSubsequence([x], b + [x])
    decreases |b|
  {
    if b != [] {
      assert (b + [x])[1..] == b[1..] + [x];
      SingletonSubsequence(b[1..], x);
    } else {
      assert [x][1..] == [];
    }
  }

  /**
   * `Array.prototype.indexOf`: the position of the first occurrence of `x`
   * in `xs`, or -1 when `x` does not occur.
   */
  function IndexOf<T(==)>(xs: seq<T>, x: T): (r: int)
    ensures -1 <= r < |xs|
    ensures r == -1 <==> x !in xs
    ensures r >= 0 ==> xs[r] == x && forall k :: 0 <= k < r ==> xs[k] != x
  {
    if xs == [] then -1
    else if xs[0] == x then 0
    else
      var r := IndexOf(xs[1..], x);
      assert x in xs[1..] ==> x in xs;
      assert x in xs ==> x in xs[1..];
      if r == -1 then -1 else r + 1
  }
}

=== FILE: stable_sort.dfy ===
/**
 * `Array.prototype.sort` with a comparator, as both views use it. The
 * comparator follows the JavaScript convention: a positive result puts `a`
 * after `b`. Since ES2019 the sort is stable, which this insertion sort
 * reproduces: each element is placed before the first element it does not
 * belong after, so ties keep their input order.
 *
 * When the comparator is the difference of an integer key on the elements
 * being sorted, the result is ordered by that key and stable; for any
 * comparator whatsoever it is a permutation of the input.
 */
module StableSort {

  /** Places `x` before the first element of `sorted` it does not belong after. */
  function Insert<T>(x: T, sorted: seq<T>, cmp: (T, T) -> int): seq<T> {
    if sorted == [] then [x]
    else if cmp(x, sorted[0]) > 0 then [sorted[0]] + Insert(x, sorted[1..], cmp)
    else [x] + sorted
  }

  /** The sorted copy of `s`; `s` itself is a value and stays as it was. */
  function Sort<T>(s: seq<T>, cmp: (T, T) -> int): seq<T> {
    if s == [] then [] else Insert(s[0], Sort(s[1..], cmp), cmp)
  }

  lemma {:induction false} InsertAdds<T>(x: T, sorted: seq<T>, cmp: (T, T) -> int)
    ensures multiset(Insert(x, sorted, cmp)) == multiset(sorted) + multiset{x}
  {
    if sorted != [] && cmp(x, sorted[0]) > 0 {
      InsertAdds(x, sorted[1..], cmp);
      assert sorted == [sorted[0]] + sorted[1..];
    }
  }

  /** Sorting permutes: the result holds each element exactly as often as the input. */
  lemma {:induction false} SortPermutes<T>(s: seq<T>, cmp: (T, T) -> int)
    ensures multiset(Sort(s, cmp)) == multiset(s)
    ensures |Sort(s, cmp)| == |s|
  {
    if s != [] {
      SortPermutes(s[1..], cmp);
      InsertAdds(s[0], Sort(s[1..], cmp), cmp);
      assert s == [s[0]] + s[1..];
    }
  }

  /** On the elements of `s`, `cmp(a, b)` is `key(a) - key(b)`. */
  ghost predicate AgreesWith<T>(cmp: (T, T) -> int, key: T -> int, s: seq<T>) {
    forall a, b | a in s && b in s :: cmp(a, b) == key(a) - key(b)
  }

  /** `r` is in non-decreasing order of `key`. */
  ghost predicate Ascending<T>(r: seq<T>, key: T -> int) {
    forall i, j :: 0 <= i < j < |r| ==> key(r[i]) <= key(r[j])
  }

  /** The elements of `s` whose key is `v`, in their order in `s`. */
  ghost function WithKey<T>(s: seq<T>, key: T -> int, v: int): seq<T> {
    if s == [] then []
    else (if key(s[0]) == v then [s[0]] else []) + WithKey(s[1..], key, v)
  }

  lemma InMultiset<T>(y: T, a: seq<T>, b: seq<T>)
    requires multiset(a) == multiset(b)
    ensures y in a <==> y in b
  {
    assert y in a <==> y in multiset(a);
    assert y in b <==> y in multiset(b);
  }

  lemma {:induction false} InsertAscending<T>(x: T, sorted: seq<T>, cmp: (T, T) -> int, key: T -> int)
    requires Ascending(sorted, key)
    requires AgreesWith(cmp, key, [x] + sorted)
    ensures Ascending(Insert(x, sorted, cmp), key)
  {
    var r := Insert(x, sorted, cmp);
    if sorted == [] {
    } else {
      assert x in [x] + sorted && sorted[0] in [x] + sorted;
      if cmp(x, sorted[0]) > 0 {
        var tail := sorted[1..];
        assert AgreesWith(cmp, key, [x] + tail) by {
          forall a, b | a in [x] + tail && b in [x] + tail
            ensures cmp(a, b) == key(a) - key(b)
          {
            assert a in [x] + sorted && b in [x] + sorted;
          }
        }
        InsertAscending(x, tail, cmp, key);
        var rest := Insert(x, tail, cmp);
        InsertAdds(x, tail, cmp);
        assert r == [sorted[0]] + rest;
        forall j | 0 <= j < |rest| ensures key(sorted[0]) <= key(rest[j]) {
          InMultiset(rest[j], rest, tail + [x]);
          assert rest[j] in multiset(rest);
          if rest[j] != x {
            assert rest[j] in tail;
            var k :| 0 <= k < |tail| && tail[k] == rest[j];
            assert sorted[k + 1] == rest[j];
          }
        }
      } else {
        assert key(x) <= key(sorted[0]);
      }
    }
  }

  /** Sorting with a comparator that is a key difference yields key order. */
  lemma {:induction false} SortAscending<T>(s: seq<T>, cmp: (T, T) -> int, key: T -> int)
    requires AgreesWith(cmp, key, s)
    ensures Ascending(Sort(s, cmp), key)
  {
    if s != [] {
      var tail := s[1..];
      assert AgreesWith(cmp, key, tail) by {
        forall a, b | a in tail && b in tail ensures cmp(a, b) == key(a) - key(b) {
          assert a in s && b in s;
        }
      }
      SortAscending(tail, cmp, key);
      var sorted := Sort(tail, cmp);
      SortPermutes(tail, cmp);
      assert AgreesWith(cmp, key, [s[0]] + sorted) by {
        forall a, b | a in [s[0]] + sorted && b in [s[0]] + sorted
          ensures cmp(a, b) == key(a) - key(b)
        {
          InMultiset(a, sorted, tail);
          InMultiset(b, sorted, tail);
          assert a in s && b in s;
        }
      }
      InsertAscending(s[0], sorted, cmp, key);
    }
  }

  lemma {:induction false} WithKeyConcat<T>(a: seq<T>, b: seq<T>, key: T -> int, v: int)
    ensures WithKey(a + b, key, v) == WithKey(a, key, v) + WithKey(b, key, v)
  {
    if a == [] {
      assert a + b == b;
    } else {
      var c := a + b;
      var head := if key(a[0]) == v then [a[0]] else [];
      assert c != [] && c[0] == a[0] && c[1..] == a[1..] + b;
      WithKeyConcat(a[1..], b, key, v);
      assert WithKey(c, key, v) == head + WithKey(a[1..] + b, key, v);
      assert WithKey(a, key, v) == head + WithKey(a[1..], key, v);
      assert head + (WithKey(a[1..], key, v) + WithKey(b, key, v))
          == (head + WithKey(a[1..], key, v)) + WithKey(b, key, v);
    }
  }

  /** Moving `x` past an element of another key leaves every tie group unchanged. */
  lemma TieGroupsPast<T>(x: T, y: T, rest: seq<T>, tail: seq<T>, key: T -> int, v: int)
    requires key(x) != key(y)
    requires WithKey(rest, key, v) == (if key(x) == v then [x] else []) + WithKey(tail, key, v)
    ensures WithKey([y] + rest, key, v) == (if key(x) == v then [x] else []) + WithKey([y] + tail, key, v)
  {
    WithKeyConcat([y], rest, key, v);
    WithKeyConcat([y], tail, key, v);
    assert WithKey([y], key, v) == [] || key(x) != v;
  }

  /**
   * Inserting `x` adds it to the tie group of its key right in front of its
   * equals, and leaves every other tie group as it was, provided `x` is
   * never moved past an element with the same key.
   */
  lemma {:induction false} InsertKeepsTies<T>(x: T, sorted: seq<T>, cmp: (T, T) -> int, key: T -> int, v: int)
    requires forall y :: y in sorted && cmp(x, y) > 0 ==> key(x) != key(y)
    ensures WithKey(Insert(x, sorted, cmp), key, v) ==
      (if key(x) == v then [x] else []) + WithKey(sorted, key, v)
  {
    if sorted != [] {
      var y := sorted[0];
      var tail := sorted[1..];
      assert sorted == [y] + tail;
      if cmp(x, y) > 0 {
        forall z | z in tail && cmp(x, z) > 0 ensures key(x) != key(z) {
          assert z in sorted;
        }
        InsertKeepsTies(x, tail, cmp, key, v);
        TieGroupsPast(x, y, Insert(x, tail, cmp), tail, key, v);
      } else {
        WithKeyConcat([x], sorted, key, v);
      }
    }
  }

  /** Elements with equal keys keep their input order (stability). */
  lemma {:induction false} SortStable<T>(s: seq<T>, cmp: (T, T) -> int, key: T -> int, v: int)
    requires AgreesWith(cmp, key, s)
    ensures WithKey(Sort(s, cmp), key, v) == WithKey(s, key, v)
  {
    if s != [] {
      var tail := s[1..];
      assert AgreesWith(cmp, key, tail) by {
        forall a, b | a in tail && b in tail ensures cmp(a, b) == key(a) - key(b) {
          assert a in s && b in s;
        }
      }
      SortStable(tail, cmp, key, v);
      var sorted := Sort(tail, cmp);
      SortPermutes(tail, cmp);
      forall y | y in sorted && cmp(s[0], y) > 0 ensures key(s[0]) != key(y) {
        InMultiset(y, sorted, tail);
        assert y in s && s[0] in s;
      }
      InsertKeepsTies(s[0], sorted, cmp, key, v);
    }
  }

  /**
   * The comparisons the sort makes on four elements when the result is
   * the second, fourth, first and third input, in that order.
   */
  lemma SortFourExample<T>(a: T, b: T, c: T, d: T, cmp: (T, T) -> int)
    requires cmp(c, d) > 0 && cmp(b, d) <= 0
    requires cmp(a, b) > 0 && cmp(a, d) > 0 && cmp(a, c) <= 0
    ensures Sort([a, b, c, d], cmp) == [b, d, a, c]
  {
    assert [a, b, c, d][1..] == [b, c, d] && [b, c, d][1..] == [c, d] && [c, d][1..] == [d];
    assert Sort([d], cmp) == [d];
    assert Sort([c, d], cmp) == Insert(c, [d], cmp) == [d, c];
    assert Sort([b, c, d], cmp) == Insert(b, [d, c], cmp) == [b, d, c];
    assert [d, c][1..] == [c] && [b, d, c][1..] == [d, c];
    assert Insert(a, [c], cmp) == [a, c];
    assert Insert(a, [d, c], cmp) == [d, a, c];
    assert Insert(a, [b, d, c], cmp) == [b, d, a, c];
  }
}

=== FILE: tables.dfy ===
/**
 * The constant tables of the data file: cluster descriptors, the cascading
 * site / location / detail-location dropdown options, the reports still in
 * the AI queue and the reports ready for evaluation, together with the
 * integrity facts that hold of them.
 */
module Tables {
  import opened Wrappers
  import opened Reports
  import Text

  const ReportClusters: seq<ClusterInfo> := [
    ClusterInfo("C-001", "Pelanggaran Kecepatan Area Gerbang", 12, 87, DuplikatKuat,
      ClusterComponents(100, 100, 50, 80, 100, 100, 70, 90)),
    ClusterInfo("C-002", "Kondisi Jalan Berlubang Pit 3", 8, 82, DuplikatKuat,
      ClusterComponents(100, 100, 100, 90, 100, 50, 60, 80)),
    ClusterInfo("C-003", "Retakan Highwall Pit 2", 5, 91, DuplikatKuat,
      ClusterComponents(100, 100, 100, 100, 100, 100, 80, 70)),
    ClusterInfo("C-004", "APD Tidak Lengkap Workshop", 15, 65, DuplikatMungkin,
      ClusterComponents(50, 50, 50, 60, 100, 50, 50, 70)),
    ClusterInfo("C-005", "Helm Safety Area Konstruksi", 22, 78, DuplikatKuat,
      ClusterComponents(50, 100, 50, 80, 100, 100, 90, 85))
  ]

  const SiteOptions: seq<string> :=
    ["MINING PIT", "MARINE", "PROCESSING PLANT", "CAMP AREA", "OFFICE AREA"]

  const LokasiOptions: map<string, seq<string>> := map[
    "MINING PIT" := ["Hauling Road", "Pit Area", "Disposal Area", "Loading Point"],
    "MARINE" := ["Fuel Transfer Area", "Jetty", "Barge Loading", "Port Office"],
    "PROCESSING PLANT" := ["Crusher", "Conveyor Belt", "Stockpile", "Weighbridge"],
    "CAMP AREA" := ["Mess Hall", "Dormitory", "Recreation Area", "Parking Lot"],
    "OFFICE AREA" := ["Main Office", "Workshop", "Warehouse", "Gate"]
  ]

  const DetailLokasiOptions: map<string, seq<string>> := map[
    "Hauling Road" := ["Jalur Angkut Pit Selatan", "Jalur Angkut Pit Utara", "Persimpangan Utama"],
    "Pit Area" := ["Pit 1 Section A", "Pit 2 Section B", "Pit 3 Section C"],
    "Disposal Area" := ["Disposal Utama", "Disposal Cadangan"],
    "Loading Point" := ["Loading Point 1", "Loading Point 2", "Loading Point 3"],
    "Fuel Transfer Area" := ["Fuel Hose Connection Point", "Fuel Storage Tank", "Pump Station"],
    "Jetty" := ["Jetty Utama", "Jetty Cadangan", "Dermaga Bongkar"],
    "Barge Loading" := ["Conveyor Loading", "Crane Area", "Barge Parking"],
    "Port Office" := ["Ruang Kontrol", "Ruang Operator", "Area Parkir"],
    "Crusher" := ["Primary Crusher", "Secondary Crusher", "Tertiary Crusher"],
    "Conveyor Belt" := ["Conveyor Utama", "Conveyor Transfer", "Conveyor Emergency"],
    "Stockpile" := ["Stockpile A", "Stockpile B", "Reclaim Area"],
    "Weighbridge" := ["Weighbridge 1", "Weighbridge 2"],
    "Mess Hall" := ["Ruang Makan", "Dapur", "Area Cuci"],
    "Dormitory" := ["Blok A", "Blok B", "Blok C"],
    "Recreation Area" := ["Lapangan Olahraga", "Gym", "Ruang Santai"],
    "Parking Lot" := ["Parkir Utama", "Parkir Tamu"],
    "Main Office" := ["Lantai 1", "Lantai 2", "Ruang Meeting"],
    "Workshop" := ["Workshop Utama", "Workshop Elektrik", "Workshop Mekanik"],
    "Warehouse" := ["Gudang Spare Part", "Gudang Material", "Gudang BBM"],
    "Gate" := ["Gerbang Utama", "Gerbang Belakang", "Pos Jaga"]
  ]

  /** Reports waiting for, or in, AI triage (pre-AI list). */
  const AiQueueReports: seq<HazardReport> := [
    HazardReport(
      id := "HR-2025-336-24002",
      tanggal := "12 Des 2025",
      pelapor := "Sinta Dewi",
      lokasi := "(B 65) Area Gerbang",
      jenisHazard := "",
      subJenisHazard := "",
      cluster := None,
      site := "MINING PIT",
      detailLokasi := "Jalur Angkut Pit Selatan",
      deskripsiTemuan := "Pending AI analysis...",
      aiStatus := SedangAnalisisAI,
      lokasiArea := Some("Hauling Road"),
      ketidaksesuaian := Some("DDP : Kelayakan dan Pengoperasian Kendaraan / Unit"),
      subKetidaksesuaian := Some("Tidak menggunakan APD sesuai standard"),
      timestamp := Some("2025-12-12T06:15:00Z")),
    HazardReport(
      id := "HR-2025-336-24001",
      tanggal := "12 Des 2025",
      pelapor := "Rizki Pratama",
      lokasi := "(B 56) Area Transportasi",
      jenisHazard := "",
      subJenisHazard := "",
      cluster := None,
      site := "MARINE",
      detailLokasi := "Fuel Hose Connection Point",
      deskripsiTemuan := "Pending AI analysis...",
      aiStatus := MenungguAnalisisAI,
      lokasiArea := Some("Fuel Transfer Area"),
      ketidaksesuaian := Some("Pembelian, Penanganan bahan dan kendali bahan"),
      subKetidaksesuaian := Some("Penyimpanan bahan tidak tepat"),
      timestamp := Some("2025-12-12T06:20:00Z")),
    HazardReport(
      id := "HR-2025-336-24003",
      tanggal := "12 Des 2025",
      pelapor := "Hendra Saputra",
      lokasi := "(B 66) Area Galian Coal",
      jenisHazard := "",
      subJenisHazard := "",
      cluster := None,
      site := "PROCESSING PLANT",
      detailLokasi := "Primary Crusher",
      deskripsiTemuan := "Pending AI analysis...",
      aiStatus := MenungguAnalisisAI,
      lokasiArea := Some("Crusher"),
      ketidaksesuaian := Some("Kelayakan/Penggunaan Tools"),
      subKetidaksesuaian := Some("Kesesuaian penggunaan Supporting Tools"),
      timestamp := Some("2025-12-12T06:25:00Z")),
    HazardReport(
      id := "HR-2025-336-24005",
      tanggal := "12 Des 2025",
      pelapor := "Ahmad Fauzi",
      lokasi := "(B 65) Area Gerbang",
      jenisHazard := "",
      subJenisHazard := "",
      cluster := None,
      site := "MINING PIT",
      detailLokasi := "Pit 1 Section A",
      deskripsiTemuan := "Pending AI analysis...",
      aiStatus := MenungguAnalisisAI,
      lokasiArea := Some("Pit Area"),
      ketidaksesuaian := Some("Perlengkapan_Mesin_atau_Peralatan"),
      subKetidaksesuaian := Some("Pelepasan komponen-komponen yang tidak memadai"),
      timestamp := Some("2025-12-12T06:30:00Z")),
    HazardReport(
      id := "HR-2025-336-24006",
      tanggal := "12 Des 2025",
      pelapor := "Budi Santoso",
      lokasi := "(B 67) Area Workshop",
      jenisHazard := "",
      subJenisHazard := "",
      cluster := None,
      site := "OFFICE AREA",
      detailLokasi := "Workshop Utama",
      deskripsiTemuan := "Pending AI analysis...",
      aiStatus := MenungguAnalisisAI,
      lokasiArea := Some("Workshop"),
      ketidaksesuaian := Some("Perlengkapan_Mesin_atau_Peralatan"),
      subKetidaksesuaian := Some("Penyesuaian / perbaikan / pemeliharaan yang tidak memadai"),
      timestamp := Some("2025-12-12T06:35:00Z")),
    HazardReport(
      id := "HR-2025-336-24008",
      tanggal := "12 Des 2025",
      pelapor := "Agus Wijaya",
      lokasi := "(B 69) Jalan Hauling",
      jenisHazard := "",
      subJenisHazard := "",
      cluster := None,
      site := "MINING PIT",
      detailLokasi := "Jalur Angkut Pit Utara",
      deskripsiTemuan := "Pending AI analysis...",
      aiStatus := MenungguAnalisisAI,
      lokasiArea := Some("Hauling Road"),
      ketidaksesuaian := Some("Standar Road Management"),
      subKetidaksesuaian := Some("Drainase tersumbat pada jalan angkut"),
      timestamp := Some("2025-12-12T06:40:00Z")),
    HazardReport(
      id := "HR-2025-336-24010",
      tanggal := "12 Des 2025",
      pelapor := "Eka Putra",
      lokasi := "(B 71) Area Listrik",
      jenisHazard := "",
      subJenisHazard := "",
      cluster := None,
      site := "MARINE",
      detailLokasi := "Jetty Utama",
      deskripsiTemuan := "Pending AI analysis...",
      aiStatus := MenungguAnalisisAI,
      lokasiArea := Some("Jetty"),
      ketidaksesuaian := Some("Bahaya Elektrikal"),
      subKetidaksesuaian := Some("Pengamanan peralatan listrik tidak memadai"),
      timestamp := Some("2025-12-12T06:45:00Z"))
  ]

  /** Reports whose AI triage is done and which are ready for evaluation (post-AI list). */
  const PostAiReports: seq<HazardReport> := [
    HazardReport(
      id := "HR-2025-336-23915",
      tanggal := "04 Des 2025",
      pelapor := "Kamila Iskandar",
      lokasi := "(B 56) Area Transportasi",
      jenisHazard := "APD",
      subJenisHazard := "Tidak menggunakan APD",
      cluster := Some("C-005"),
      site := "BMO 1",
      detailLokasi := "Dumping Di Dekat Air QSV 3 FAD",
      deskripsiTemuan := "Pekerja tidak menggunakan helm saat berada di area konstruksi.",
      aiStatus := AISelesai,
      lokasiArea := Some("Hauling Road"),
      ketidaksesuaian := Some("DDP : Kelayakan dan Pengoperasian Kendaraan / Unit"),
      subKetidaksesuaian := Some("Tidak menggunakan APD sesuai standard"),
      timestamp := Some("2025-12-04T08:30:00Z"),
      clusterSuggestion := Some("C-005"),
      labels := Some([TBC, PSPP, GR]),
      confidenceScore := Some(95),
      evaluationStatus := Some(BelumDievaluasi),
      slaStatus := Some(Hijau)),
    HazardReport(
      id := "HR-2025-336-23916",
      tanggal := "04 Des 2025",
      pelapor := "Ahmad Wijaya",
      lokasi := "(B 56) Area Transportasi",
      jenisHazard := "APD",
      subJenisHazard := "APD tidak lengkap",
      cluster := Some("C-004"),
      site := "BMO 2",
      detailLokasi := "Area Dumping Utama",
      deskripsiTemuan := "Operator HD tidak menggunakan safety vest saat keluar dari unit.",
      aiStatus := AISelesai,
      lokasiArea := Some("Pit Area"),
      ketidaksesuaian := Some("Perlengkapan_Mesin_atau_Peralatan"),
      subKetidaksesuaian := Some("Penyesuaian / perbaikan / pemeliharaan yang tidak memadai"),
      timestamp := Some("2025-12-04T09:15:00Z"),
      labels := Some([TBC]),
      confidenceScore := Some(88),
      evaluationStatus := Some(BelumDievaluasi),
      slaStatus := Some(Kuning)),
    HazardReport(
      id := "HR-2025-336-23917",
      tanggal := "03 Des 2025",
      pelapor := "Siti Rahayu",
      lokasi := "(B 65) Area Gerbang",
      jenisHazard := "Pengoperasian Kendaraan",
      subJenisHazard := "Kecepatan berlebih",
      cluster := Some("C-001"),
      site := "BMO 1",
      detailLokasi := "Gerbang Utama Site",
      deskripsiTemuan := "LV melaju dengan kecepatan 45 km/jam di area 30 km/jam.",
      aiStatus := AISelesai,
      lokasiArea := Some("Hauling Road"),
      ketidaksesuaian := Some("DDP : Kelayakan dan Pengoperasian Kendaraan / Unit"),
      subKetidaksesuaian := Some("Tidak menggunakan APD sesuai standard"),
      timestamp := Some("2025-12-03T07:45:00Z"),
      evaluatorName := Some("Andi Supervisor"),
      labels := Some([PSPP, GR]),
      confidenceScore := Some(92),
      evaluationStatus := Some(DalamEvaluasi),
      slaStatus := Some(Hijau)),
    HazardReport(
      id := "HR-2025-336-23918",
      tanggal := "03 Des 2025",
      pelapor := "Dedi Kurniawan",
      lokasi := "(B 66) Area Galian Coal",
      jenisHazard := "Perawatan Jalan",
      subJenisHazard := "Jalan berlubang",
      cluster := Some("C-002"),
      site := "BMO 1",
      detailLokasi := "Pit 3 Section A",
      deskripsiTemuan := "Terdapat lubang berdiameter 50cm di hauling road.",
      aiStatus := AISelesai,
      lokasiArea := Some("Pit Area"),
      ketidaksesuaian := Some("Standar Road Management"),
      subKetidaksesuaian := Some("Drainase tersumbat pada jalan angkut"),
      timestamp := Some("2025-12-03T10:20:00Z"),
      evaluatorName := Some("Budi Evaluator"),
      labels := Some([GR]),
      confidenceScore := Some(85),
      evaluationStatus := Some(Selesai),
      slaStatus := Some(Hijau)),
    HazardReport(
      id := "HR-2025-336-23919",
      tanggal := "02 Des 2025",
      pelapor := "Rina Marlina",
      lokasi := "(B 56) Area Transportasi",
      jenisHazard := "APD",
      subJenisHazard := "Tidak menggunakan APD",
      cluster := Some("C-005"),
      site := "BMO 2",
      detailLokasi := "Loading Point 2",
      deskripsiTemuan := "Crew tidak menggunakan kacamata safety saat dekat area debu.",
      aiStatus := AISelesai,
      lokasiArea := Some("Loading Point"),
      ketidaksesuaian := Some("Pembelian, Penanganan bahan dan kendali bahan"),
      subKetidaksesuaian := Some("Penyimpanan bahan tidak tepat"),
      timestamp := Some("2025-12-02T14:30:00Z"),
      labels := Some([TBC, PSPP]),
      confidenceScore := Some(91),
      evaluationStatus := Some(BelumDievaluasi),
      slaStatus := Some(Merah)),
    HazardReport(
      id := "HR-2025-336-23920",
      tanggal := "02 Des 2025",
      pelapor := "Bambang Sutrisno",
      lokasi := "(B 65) Area Gerbang",
      jenisHazard := "Pengoperasian Kendaraan",
      subJenisHazard := "Tidak sabuk pengaman",
      cluster := Some("C-001"),
      site := "BMO 1",
      detailLokasi := "Checkpoint 1",
      deskripsiTemuan := "Driver LV tidak menggunakan seatbelt.",
      aiStatus := AISelesai,
      lokasiArea := Some("Disposal Area"),
      ketidaksesuaian := Some("Kelayakan/Penggunaan Tools"),
      subKetidaksesuaian := Some("Kesesuaian penggunaan Supporting Tools"),
      timestamp := Some("2025-12-02T11:00:00Z"),
      evaluatorName := Some("Citra Evaluator"),
      labels := Some([PSPP, GR]),
      confidenceScore := Some(89),
      evaluationStatus := Some(Selesai),
      slaStatus := Some(Hijau)),
    HazardReport(
      id := "HR-2025-336-23921",
      tanggal := "01 Des 2025",
      pelapor := "Maya Sari",
      lokasi := "(B 66) Area Galian Coal",
      jenisHazard := "Kondisi Area",
      subJenisHazard := "Material longsor",
      cluster := Some("C-003"),
      site := "BMO 1",
      detailLokasi := "Highwall Pit 2",
      deskripsiTemuan := "Terdapat retakan di highwall yang berpotensi longsor.",
      aiStatus := AISelesai,
      lokasiArea := Some("Pit Area"),
      ketidaksesuaian := Some("Bahaya Elektrikal"),
      subKetidaksesuaian := Some("Pengamanan peralatan listrik tidak memadai"),
      timestamp := Some("2025-12-01T16:45:00Z"),
      evaluatorName := Some("Doni Evaluator"),
      labels := Some([GR]),
      confidenceScore := Some(94),
      evaluationStatus := Some(DalamEvaluasi),
      slaStatus := Some(Kuning)),
    HazardReport(
      id := "HR-2025-336-23922",
      tanggal := "01 Des 2025",
      pelapor := "Andi Pratama",
      lokasi := "(B 56) Area Transportasi",
      jenisHazard := "APD",
      subJenisHazard := "Tidak menggunakan APD",
      cluster := Some("C-004"),
      site := "BMO 2",
      detailLokasi := "Workshop Area",
      deskripsiTemuan := "Mekanik tidak menggunakan sarung tangan saat handling oli.",
      aiStatus := AISelesai,
      lokasiArea := Some("Workshop"),
      ketidaksesuaian := Some("Kelengkapan tanggap darurat"),
      subKetidaksesuaian := Some("Alat Tanggap Darurat belum dilakukan inspeksi"),
      timestamp := Some("2025-12-01T09:30:00Z"),
      labels := Some([TBC]),
      confidenceScore := Some(87),
      evaluationStatus := Some(PerluReviewUlang),
      slaStatus := Some(Merah))
  ]


  /** `id` names one of the cluster descriptors. */
  predicate IsClusterId(id: string) {
    exists k :: 0 <= k < |ReportClusters| && ReportClusters[k].id == id
  }

  /** Each enumeration is closed: its listing holds every value, once. */
  lemma EnumerationsClosed()
    ensures |AllAIStatuses| == 4 && Distinct(AllAIStatuses)
    ensures forall s: AIStatus :: s in AllAIStatuses
    ensures |AllEvaluationStatuses| == 4 && Distinct(AllEvaluationStatuses)
    ensures forall s: EvaluationStatus :: s in AllEvaluationStatuses
    ensures |AllSLAStatuses| == 3 && Distinct(AllSLAStatuses)
    ensures forall s: SLAStatus :: s in AllSLAStatuses
    ensures |AllHazardLabels| == 3 && Distinct(AllHazardLabels)
    ensures forall l: HazardLabel :: l in AllHazardLabels
  {
    forall s: AIStatus ensures s in AllAIStatuses {
      match s
      case MenungguAnalisisAI => assert s == AllAIStatuses[0];
      case SedangAnalisisAI => assert s == AllAIStatuses[1];
      case AIGagal => assert s == AllAIStatuses[2];
      case AISelesai => assert s == AllAIStatuses[3];
    }
    forall s: EvaluationStatus ensures s in AllEvaluationStatuses {
      match s
      case BelumDievaluasi => assert s == AllEvaluationStatuses[0];
      case DalamEvaluasi => assert s == AllEvaluationStatuses[1];
      case Selesai => assert s == AllEvaluationStatuses[2];
      case PerluReviewUlang => assert s == AllEvaluationStatuses[3];
    }
    forall s: SLAStatus ensures s in AllSLAStatuses {
      match s
      case Hijau => assert s == AllSLAStatuses[0];
      case Kuning => assert s == AllSLAStatuses[1];
      case Merah => assert s == AllSLAStatuses[2];
    }
    forall l: HazardLabel ensures l in AllHazardLabels {
      match l
      case TBC => assert l == AllHazardLabels[0];
      case PSPP => assert l == AllHazardLabels[1];
      case GR => assert l == AllHazardLabels[2];
    }
  }

  /**
   * The dropdown cascade never dead-ends: every site has a location list,
   * and every location offered for a site has a non-empty detail list.
   */
  lemma OptionCascadeComplete()
    ensures forall s :: s in SiteOptions ==> s in LokasiOptions && |LokasiOptions[s]| > 0
    ensures forall s, l :: s in LokasiOptions && l in LokasiOptions[s] ==>
      l in DetailLokasiOptions && |DetailLokasiOptions[l]| > 0
  {
  }

  /** Cluster ids are pairwise distinct, and every clustered post-AI report names a cluster. */
  lemma ClustersResolve()
    ensures forall i, j :: 0 <= i < j < |ReportClusters| ==> ReportClusters[i].id != ReportClusters[j].id
    ensures forall i :: 0 <= i < |PostAiReports| && PostAiReports[i].cluster.Some? ==>
      IsClusterId(PostAiReports[i].cluster.value)
  {
    forall i | 0 <= i < |PostAiReports| && PostAiReports[i].cluster.Some?
      ensures IsClusterId(PostAiReports[i].cluster.value)
    {
      var c := PostAiReports[i].cluster.value;
      if c == "C-001" { assert ReportClusters[0].id == c; }
      else if c == "C-002" { assert ReportClusters[1].id == c; }
      else if c == "C-003" { assert ReportClusters[2].id == c; }
      else if c == "C-004" { assert ReportClusters[3].id == c; }
      else { assert ReportClusters[4].id == c; }
    }
  }

  /** The AI queue holds only unclustered reports whose triage is not done. */
  lemma AiQueueNotTriaged()
    ensures forall i :: 0 <= i < |AiQueueReports| ==>
      AiQueueReports[i].cluster.None? && AiQueueReports[i].aiStatus != AISelesai
  {
  }

  /** The timestamps of the AI queue, in listing order. */
  const AiQueueTimestamps: seq<string> := [
    "2025-12-12T06:15:00Z", "2025-12-12T06:20:00Z", "2025-12-12T06:25:00Z",
    "2025-12-12T06:30:00Z", "2025-12-12T06:35:00Z", "2025-12-12T06:40:00Z",
    "2025-12-12T06:45:00Z"]

  lemma AiQueueTimestampsListed()
    ensures |AiQueueTimestamps| == |AiQueueReports|
    ensures forall i :: 0 <= i < |AiQueueReports| ==>
      AiQueueReports[i].timestamp == Some(AiQueueTimestamps[i])
  {
  }

  /** The stamps are ISO timestamps five minutes apart from 06:15:00. */
  lemma TimestampsEveryFiveMinutes()
    ensures forall i :: 0 <= i < |AiQueueTimestamps| ==>
      Text.IsIsoTimestamp(AiQueueTimestamps[i]) &&
      Text.IsoKey(AiQueueTimestamps[i]) == 20251212061500 + 500 * i
  {
    forall i | 0 <= i < |AiQueueTimestamps|
      ensures Text.IsIsoTimestamp(AiQueueTimestamps[i])
      ensures Text.IsoKey(AiQueueTimestamps[i]) == 20251212061500 + 500 * i
    {
      StampFiveMinutesIn(i);
    }
  }

  /** A stamp of 12 December 2025, 06:mm:00: ISO form, and its key grows by 100 per minute. */
  lemma SixOClockStamp(m1: char, m2: char)
    requires Text.IsDigit(m1) && Text.IsDigit(m2)
    ensures Text.IsIsoTimestamp("2025-12-12T06:" + [m1, m2] + ":00Z")
    ensures Text.IsoKey("2025-12-12T06:" + [m1, m2] + ":00Z") ==
      20251212060000 + 100 * (10 * Text.DigitValue(m1) + Text.DigitValue(m2))
  {
    var ts := "2025-12-12T06:" + [m1, m2] + ":00Z";
    assert ts[14] == m1 && ts[15] == m2;
  }

  /** One AI-queue stamp: ISO form, key 06:15:00 plus five minutes per position. */
  lemma StampFiveMinutesIn(i: int)
    requires 0 <= i < |AiQueueTimestamps|
    ensures Text.IsIsoTimestamp(AiQueueTimestamps[i])
    ensures Text.IsoKey(AiQueueTimestamps[i]) == 20251212061500 + 500 * i
  {
    var m := [('1', '5'), ('2', '0'), ('2', '5'), ('3', '0'), ('3', '5'), ('4', '0'), ('4', '5')];
    assert AiQueueTimestamps[i] == "2025-12-12T06:" + [m[i].0, m[i].1] + ":00Z";
    SixOClockStamp(m[i].0, m[i].1);
  }

  /** Every AI-queue report is stamped, and the stamps strictly increase down the list. */
  lemma AiQueueChronological()
    ensures forall i :: 0 <= i < |AiQueueReports| ==>
      AiQueueReports[i].timestamp.Some? && Text.IsIsoTimestamp(AiQueueReports[i].timestamp.value)
    ensures forall i, j :: 0 <= i < j < |AiQueueReports| ==>
      Text.IsoKey(AiQueueReports[i].timestamp.value) < Text.IsoKey(AiQueueReports[j].timestamp.value)
  {
    AiQueueTimestampsListed();
    TimestampsEveryFiveMinutes();
  }

  /** Every post-AI report is done with triage and carries its derived fields. */
  lemma PostAiWellFormed()
    ensures forall i :: 0 <= i < |PostAiReports| ==>
      && PostAiReports[i].aiStatus == AISelesai
      && PostAiReports[i].labels.Some?
      && PostAiReports[i].confidenceScore.Some?
      && PostAiReports[i].evaluationStatus.Some?
  {
  }

  /** The report ids of both lists, in listing order. */
  const AiQueueIds: seq<string> := [
    "HR-2025-336-24002", "HR-2025-336-24001", "HR-2025-336-24003", "HR-2025-336-24005",
    "HR-2025-336-24006", "HR-2025-336-24008", "HR-2025-336-24010"]
  const PostAiIds: seq<string> := [
    "HR-2025-336-23915", "HR-2025-336-23916", "HR-2025-336-23917", "HR-2025-336-23918",
    "HR-2025-336-23919", "HR-2025-336-23920", "HR-2025-336-23921", "HR-2025-336-23922"]

  lemma IdsListed()
    ensures |AiQueueIds| == |AiQueueReports|
    ensures forall i :: 0 <= i < |AiQueueReports| ==> AiQueueReports[i].id == AiQueueIds[i]
    ensures |PostAiIds| == |PostAiReports|
    ensures forall i :: 0 <= i < |PostAiReports| ==> PostAiReports[i].id == PostAiIds[i]
  {
  }

  lemma ListedIdsDistinct()
    ensures Distinct(AiQueueIds) && Distinct(PostAiIds)
  {
  }

  /** Report ids are pairwise distinct in the AI queue. */
  lemma AiQueueIdsDistinct()
    ensures DistinctIds(AiQueueReports)
  {
    IdsListed();
    ListedIdsDistinct();
  }

  /** Report ids are pairwise distinct in the post-AI list. */
  lemma PostAiIdsDistinct()
    ensures DistinctIds(PostAiReports)
  {
    IdsListed();
    ListedIdsDistinct();
  }
}

=== FILE: text.dfy ===
/**
 * The few string operations the views rely on: ASCII lower-casing, the
 * substring test behind `String.prototype.includes`, decimal rendering of
 * a day count, and reading a fixed-width ISO-8601 timestamp.
 */
module Text {

  /** ASCII lower-casing of one character; other characters are unchanged. */
  function LowerChar(c: char): (r: char)
    ensures 'A' <= c <= 'Z' ==> r as int == c as int + 32
    ensures !('A' <= c <= 'Z') ==> r == c
  {
    if 'A' <= c <= 'Z' then (c as int + 32) as char else c
  }

  /** ASCII lower-casing of a string, character by character. */
  function Lower(s: string): (r: string)
    ensures |r| == |s|
    ensures forall i :: 0 <= i < |s| ==> r[i] == LowerChar(s[i])
  {
    if s == [] then [] else [LowerChar(s[0])] + Lower(s[1..])
  }

  /** `needle` occurs in `hay` at position `i`. */
  predicate OccursAt(hay: string, needle: string, i: int) {
    0 <= i && i + |needle| <= |hay| && hay[i..i + |needle|] == needle
  }

  /** `hay.includes(needle)`: some position of `hay` starts a copy of `needle`. */
  ghost predicate Includes(hay: string, needle: string) {
    exists i :: OccursAt(hay, needle, i)
  }

  /** A left-to-right scan for `needle`, the executable form of `Includes`. */
  function FindFrom(hay: string, needle: string, i: nat): (r: bool)
    requires i <= |hay|
    ensures r <==> exists k :: i <= k && OccursAt(hay, needle, k)
    decreases |hay| - i
  {
    if i + |needle| > |hay| then false
    else if hay[i..i + |needle|] == needle then assert OccursAt(hay, needle, i); true
    else FindFrom(hay, needle, i + 1)
  }

  /** The scan agrees with the `Includes` predicate. */
  function Contains(hay: string, needle: string): (r: bool)
    ensures r <==> Includes(hay, needle)
  {
    FindFrom(hay, needle, 0)
  }

  /** Every string includes the empty string. */
  lemma EmptyIncluded(hay: string)
    ensures Contains(hay, "")
  {
    assert OccursAt(hay, "", 0);
  }

  function DigitChar(d: nat): (c: char)
    requires d < 10
    ensures '0' <= c <= '9'
  {
    ('0' as int + d) as char
  }

  predicate IsDigit(c: char) {
    '0' <= c <= '9'
  }

  function DigitValue(c: char): (d: nat)
    requires IsDigit(c)
    ensures d < 10
  {
    c as int - '0' as int
  }

  predicate AllDigits(s: string) {
    forall i :: 0 <= i < |s| ==> IsDigit(s[i])
  }

  /** Decimal rendering of a natural number, as JavaScript prints it. */
  function NatToString(n: nat): (s: string)
    ensures |s| >= 1
    ensures AllDigits(s)
    ensures |s| > 1 ==> s[0] != '0'
  {
    if n < 10 then [DigitChar(n)] else NatToString(n / 10) + [DigitChar(n % 10)]
  }

  /** The value of a string of decimal digits. */
  function ParseDigits(s: string): nat
    requires AllDigits(s)
  {
    if s == [] then 0 else 10 * ParseDigits(s[..|s| - 1]) + DigitValue(s[|s| - 1])
  }

  /** Reading back a rendered number gives the number. */
  lemma {:induction false} ParseNatToString(n: nat)
    ensures ParseDigits(NatToString(n)) == n
  {
    var s := NatToString(n);
    if n >= 10 {
      ParseNatToString(n / 10);
      assert s[..|s| - 1] == NatToString(n / 10);
    }
  }

  /** The value of the digit at position `i`. */
  function DigitAt(ts: string, i: nat): (d: nat)
    requires i < |ts| && IsDigit(ts[i])
    ensures d < 10
  {
    DigitValue(ts[i])
  }

  /** `ts` has the fixed-width UTC form `YYYY-MM-DDTHH:MM:SSZ`. */
  predicate IsIsoTimestamp(ts: string) {
    && |ts| == 20
    && ts[4] == '-' && ts[7] == '-' && ts[10] == 'T'
    && ts[13] == ':' && ts[16] == ':' && ts[19] == 'Z'
    && IsDigit(ts[0]) && IsDigit(ts[1]) && IsDigit(ts[2]) && IsDigit(ts[3])
    && IsDigit(ts[5]) && IsDigit(ts[6]) && IsDigit(ts[8]) && IsDigit(ts[9])
    && IsDigit(ts[11]) && IsDigit(ts[12]) && IsDigit(ts[14]) && IsDigit(ts[15])
    && IsDigit(ts[17]) && IsDigit(ts[18])
  }

  /**
   * An order key for an ISO timestamp: its fourteen digits (year, month,
   * day, hour, minute, second) read as one decimal number, so comparing
   * keys compares the fixed-width digit fields from the year down.
   */
  function IsoKey(ts: string): (k: nat)
    requires IsIsoTimestamp(ts)
  {
    var year := 1000 * DigitAt(ts, 0) + 100 * DigitAt(ts, 1) + 10 * DigitAt(ts, 2) + DigitAt(ts, 3);
    var month := 10 * DigitAt(ts, 5) + DigitAt(ts, 6);
    var day := 10 * DigitAt(ts, 8) + DigitAt(ts, 9);
    var hour := 10 * DigitAt(ts, 11) + DigitAt(ts, 12);
    var minute := 10 * DigitAt(ts, 14) + DigitAt(ts, 15);
    var second := 10 * DigitAt(ts, 17) + DigitAt(ts, 18);
    ((((year * 100 + month) * 100 + day) * 100 + hour) * 100 + minute) * 100 + second
  }
}

=== FILE: wrappers.dfy ===
/** Optional values, standing in for the application's `field?: T` and `T | null`. */
module Wrappers {

  datatype Option<+T> = None | Some(value: T) {

    /** Returns the value held in Some, or `default` when absent. */
    function GetOr(default: T): T {
      match this
      case Some(v) => v
      case None => default
    }
  }
}
